=== FILE: README.md ===
# Elegance Interiors site logic, in Dafny

This project models the decision logic of the Elegance Interiors web site: its public pages and its admin screens. The site is a React application backed by a Firestore document store. Rendering, styling and the store SDK are left out. What remains is pure functions over records and sequences:

- **Page bar** (`Pagination`): the visible page list with ellipses, the "Showing a–b of N" range, and the guards on page and page-size changes.
- **Cursor paging** (`CursorPaging`): the cursor-based paging that the quotes and messages admin screens each carry a copy of. It is written once here, generic in the document fields. It models the per-page cursor slots, the choice between a first-page query and a resume-after-cursor query (including the silent fallback), and page replacement. It also proves what stepping page by page shows.
- **Admin screens**: quotes (`AdminQuotes`), messages (`AdminMessages`), reviews (`AdminReviews`) and the gallery manager (`GalleryUpload`). Each has its filters, counts, local updates, deletes and resets.
- **Public forms**: the contact form (`Contact`, with its ordered validation and the email and phone patterns), the page review form (`ReviewForm`) and the floating review button (`ReviewUsButton`).
- **Public lists**: the commercial project catalogue with its category filter, flattened media list and cyclic lightbox (`CommercialProjects`). Also the "Load More" gallery with its image/video split (`OurProjects`).

**Shared modules:**
- `Common`: `Option`, the array `filter` with its lemmas, and `Select`, the list screens' filter read as an order-preserving subsequence of exactly the passing elements.
- `Text`: ECMAScript white space, `trim`, white-space removal, ASCII case folding, `includes`, `indexOf`, and the optional-field search test the admin screens share.
- `DocStore`: a store as a sequence of documents, newest first.

**The store.** Documents are ordered by `createdAt`, strictly decreasing. `startAfter(cursor)` returns the strictly older documents and `limit(n)` the first `n`. Each store call's outcome is a parameter: success or failure, the reply, or the error text. The store-assigned id and timestamp are parameters too. A JavaScript array write past the end leaves holes (`SetSlot`). Optional fields read with `?.` are `Option` values.

## Model

| member | source | states |
|---|---|---|
| Pagination.TotalPages | src/components/AdminQuotes.jsx:791 | `Math.ceil(totalItems / pageSize)`: the least page count whose pages hold every item, `(r-1)*size < total <= r*size`; the messages screen computes the same `totalPages` (AdminMessages.jsx line 889) |
| Pagination.VisiblePages | src/components/Pagination.jsx:192-216 | the list has length left part + window + right part, and entry i is `Entry(i)`: page 1, then an ellipsis exactly when there is a left gap, the window pages in order, an ellipsis exactly when there is a right gap, then the last page |
| Pagination.VisibleEnds | src/components/Pagination.jsx:201-213 | the list starts with page 1; it ends with the last page whenever there is more than one; it never has more than nine entries |
| Pagination.VisibleWindow | src/components/Pagination.jsx:197-213 | every page within two of the current one (clipped to 1..totalPages) is listed; a listed number is page 1, the last page or inside the window |
| Pagination.VisibleEllipses | src/components/Pagination.jsx:201-213 | a left ellipsis appears exactly when `current-2 > 2`, a right one exactly when `current+2 < totalPages-1`; an ellipsis only ever stands second or second-to-last |
| Pagination.VisibleIncreasing | src/components/Pagination.jsx:197-213 | the numbers in the list strictly increase, so no page is listed twice |
| Pagination.NoSilentGaps | src/components/Pagination.jsx:197-213 | adjacent numbers are consecutive; an ellipsis always sits between two numbers at least two apart |
| Pagination.WorkedExamples | src/components/Pagination.jsx:192-216 | 10 pages around page 5 give `1 … 3 4 5 6 7 … 10`; 4 pages around page 2 give `1 2 3 4` |
| Pagination.PageButtons | src/components/Pagination.jsx:237-258 | no page buttons at all exactly when there is at most one page; otherwise the buttons run from page 1 to the last page |
| Pagination.StartItem | src/components/Pagination.jsx:189 | the first shown item number is one past the store offset of page `current` |
| Pagination.EndItem | src/components/Pagination.jsx:190 | the last shown item number is the end of the page or the total, whichever is smaller |
| Pagination.ShowingDescribesSlice | src/components/Pagination.jsx:189-190 | for a page holding documents, "Showing a-b" names exactly that page's slice of the store: `a-1` is its offset and `b-a+1` its length |
| Pagination.ShowingRange | src/components/Pagination.jsx:189-190 | for a page within the page count, `1 <= start <= end <= total` and the range holds at most one page size of items |
| Pagination.HandlePageChange | src/components/Pagination.jsx:218-224 | a page is forwarded exactly when it lies in 1..totalPages and differs from the current one |
| Pagination.PrevNextAtEnds | src/components/Pagination.jsx:266-297 | Prev does nothing exactly on page 1 and Next exactly on the last page, the pages where each button is disabled |
| Pagination.HandlePageSizeChange | src/components/Pagination.jsx:226-235 | a different size is forwarded and followed by a request for page 1; the same size forwards nothing |
| CursorPaging.ChooseQuery | src/components/AdminQuotes.jsx:656-661 | the resume query is chosen exactly when page > 1, slot page-2 holds a cursor and no reset was asked; it resumes after that cursor |
| CursorPaging.SetSlot | src/components/AdminQuotes.jsx:676-680 | writing slot i sets it, keeps every other slot, and pads the gap past the old end with holes |
| CursorPaging.RecordCursor | src/components/AdminQuotes.jsx:674-682 | after a non-empty batch, slot page-1 holds its last document and the other slots are unchanged; an empty batch leaves the slots as they were |
| CursorPaging.ApplyReply | src/components/AdminQuotes.jsx:663-687 | a reply replaces the loaded page with exactly the returned documents and sets `hasMore` to whether the batch was full; a failed request changes nothing |
| CursorPaging.Fetch | src/components/AdminQuotes.jsx:652-688 | the fetch's effect: at most `size` items; `hasMore` exactly when the batch is full; the first page of the store when the first-page query runs; the cursor slot rule; page, size and total untouched; `fetchMessages` (AdminMessages.jsx lines 760-791) is the same fetch on the messages collection |
| CursorPaging.FetchReplaces | src/components/AdminQuotes.jsx:670-671 | the page loaded does not depend on the page loaded before: fetches never accumulate |
| CursorPaging.MissingCursorFallsBack | src/components/AdminQuotes.jsx:656-661 | a page past the first with no cursor in slot page-2 silently shows the store's first page |
| CursorPaging.ResumesAfterCursor | src/components/AdminQuotes.jsx:658-682 | moving to page k with a cursor in slot k-2 loads what follows that cursor; the new page's last document goes to slot k-1 |
| CursorPaging.Effect | src/components/AdminQuotes.jsx:696-698 | the effect keyed on page and size refetches exactly when one of them changed, and then loads what the query for the new page returns |
| CursorPaging.ResetPaging | src/components/AdminQuotes.jsx:751-761 | back to page 1 with every cursor discarded; size, total and loaded page kept |
| CursorPaging.PageSizeChangeRestarts | src/components/Pagination.jsx:226-235 | picking a new size in the bar lands on page 1 of the new size with no cursors; the effect then loads the store's first page |
| CursorPaging.GoTo | src/components/Pagination.jsx:218-224 | clicking a page button: an invalid or current page changes nothing; otherwise the screen moves to that page and loads what its query returns |
| CursorPaging.ResumeGivesNextSlice | src/components/AdminQuotes.jsx:658-660 | in a newest-first store, resuming after the document just before page k's offset with `limit(size)` yields exactly page k |
| CursorPaging.NextPageShown | src/components/AdminQuotes.jsx:652-698 | from a state showing page k-1 (its last document in slot k-2), moving to page k shows page k and records its last document in slot k-1 |
| CursorPaging.WalkShowsSlicesAt | src/components/AdminQuotes.jsx:652-698 | mounting and then stepping forward page by page shows page k as the k-th run of `size` documents, as long as the pages before it were full |
| CursorPaging.WalkShowsSlices | src/components/AdminQuotes.jsx:652-698 | the same, with page k starting at offset `(k-1)*size` |
| CursorPaging.ConsecutivePages | src/components/AdminQuotes.jsx:652-698 | two states showing pages k and k+1 share no document, and together their pages form one contiguous run of the store: nothing is repeated or skipped |
| CursorPaging.HasMoreOnExactMultiple | src/components/AdminQuotes.jsx:684 | `hasMore` is a guess: a store of exactly two full pages still reports more after page 2 |
| DocStore.StartAfterIsSuffix | src/components/AdminQuotes.jsx:659 | in a newest-first store, `startAfter` the document at position i returns exactly the documents after it |
| DocStore.PagesDisjoint | src/components/AdminQuotes.jsx:656-660 | two different pages of a newest-first store share no document |
| DocStore.UpdateById | src/components/AdminQuotes.jsx:717-719 | the local `map` update: same length, same ids and times, only the records with that id change |
| DocStore.RemoveById | src/components/AdminQuotes.jsx:733 | the local `filter` on delete: no record with that id remains, every other record stays, nothing new appears |
| DocStore.RemovePresentId | src/components/AdminQuotes.jsx:733 | with unique ids, removing a present id shortens the list by exactly one |
| DocStore.RemoveKeepsOrder | src/components/AdminQuotes.jsx:733 | removal keeps the remaining records in their order |
| DocStore.RemoveLoaded | src/components/AdminQuotes.jsx:733 | a delete keeps the rest in order and, with unique ids, costs a present id exactly one entry |
| Text.Trim | src/components/Contact.jsx:434 | `trim()` is empty exactly when the string is all ECMAScript white space; otherwise it starts and ends with a non-space |
| Text.RemoveSpaces | src/components/Contact.jsx:437 | `replace(/\s/g, '')` is exactly the filter of the non-space characters: an order-preserving subsequence with every other character kept, in order and with its multiplicity; empty exactly for all-space input |
| Text.RemoveSpacesSkips | src/components/Contact.jsx:437 | a white-space character anywhere is removed without a trace |
| Text.Includes | src/components/AdminQuotes.jsx:703-705 | `includes` holds exactly when the needle occurs at some offset of the haystack |
| Text.IndexOf | src/components/Contact.jsx:436 | the first position of a character, or none exactly when it does not occur |
| AdminQuotes.FilteredQuotes | src/components/AdminQuotes.jsx:701-709 | an order-preserving subsequence of the loaded page; a quote is kept exactly when its status passes the filter and the search (empty, or a case-insensitive substring of name, email or description); under a status filter every listed quote has that status |
| AdminQuotes.AllShowsPage | src/components/AdminQuotes.jsx:701-709 | with 'all' and an empty search, the whole loaded page is listed |
| AdminQuotes.SearchIgnoresCase | src/components/AdminQuotes.jsx:703-705 | searching for the lower-cased term lists the same quotes as the term itself |
| AdminQuotes.ChangeStatus | src/components/AdminQuotes.jsx:711-727 | a successful change sets the status of exactly the quote with that id (and of the open quote if it is that one); length and every other quote unchanged; a failed write changes nothing |
| AdminQuotes.ChangedQuoteShownUnderNewStatus | src/components/AdminQuotes.jsx:701-727 | after a change, filtering by the new status lists the changed quote |
| AdminQuotes.Delete | src/components/AdminQuotes.jsx:729-744 | a confirmed, successful delete removes the quote with that id, keeps the others in order, decrements the total by exactly one and closes its modal; with unique ids the page loses exactly one row; page, size, cursors, `hasMore`, filter and search are kept; otherwise nothing changes |
| AdminQuotes.StatusTileClick | src/components/AdminQuotes.jsx:751-755 | the tile's status becomes the filter, back to page 1, cursors emptied |
| AdminQuotes.StatusSelect | src/components/AdminQuotes.jsx:827-830 | the status dropdown sets the filter and keeps the page number, the cursors and the loaded page |
| AdminQuotes.StatusSelectKeepsPage | src/components/AdminQuotes.jsx:827-830 | after the dropdown the effect refetches nothing, so the new filter applies to the page already loaded |
| AdminQuotes.PageSizeChange | src/components/AdminQuotes.jsx:757-761 | the new size, page 1, cursors emptied, filter and search kept |
| AdminQuotes.StatusCount | src/components/AdminQuotes.jsx:763-766 | the 'all' tile shows the store-wide total; any other tile a count between 0 and the loaded page's length, which is 0 exactly when no loaded quote has that status |
| AdminQuotes.TileCountMatchesList | src/components/AdminQuotes.jsx:763-766 | a status tile counts what its filter lists on the loaded page with no search; the 'all' tile shows the store-wide total instead |
| AdminQuotes.TileClickLoadsFirstPage | src/components/AdminQuotes.jsx:696-698 | clicking a tile while on a later page makes the effect load the store's first page, whatever cursors were held |
| AdminMessages.FilteredMessages | src/components/AdminMessages.jsx:869-881 | an order-preserving subsequence; a message is kept exactly when its name, email or text contains the search case-insensitively (no empty-term shortcut) and its flag passes the filter; every listed message has a name, an email or a text |
| AdminMessages.EmptySearchNeedsAField | src/components/AdminMessages.jsx:870-873 | with an empty search a message is listed exactly when it has a name, an email or a text |
| AdminMessages.ReadUnreadSplit | src/components/AdminMessages.jsx:875-878 | under one search the 'read' and 'unread' filters together list as many messages as 'all' |
| AdminMessages.Mark | src/components/AdminMessages.jsx:810-838 | mark read or unread when the open message the handler sees is still the open one: sets `read` on exactly the list entries with that id and on the open message if it has that id; others and the length unchanged; a failed write changes nothing |
| AdminMessages.MarkIdempotent | src/components/AdminMessages.jsx:810-838 | marking the same way twice equals marking once |
| AdminMessages.MarkFrom | src/components/AdminMessages.jsx:810-838 | the mark handler run from an earlier render: the list changes exactly as in `Mark`; when the open message that render saw had that id, the message open now keeps all its fields and takes the flag, and with none open an object carrying only the flag appears; otherwise the open message is left as it is now |
| AdminMessages.MarkFromCurrent | src/components/AdminMessages.jsx:810-838 | run from the current render, the handler is `Mark` |
| AdminMessages.ViewAsWritten | src/components/AdminMessages.jsx:803-822 | opening a message shows it; an unread one has its list entries marked read as in `Mark`; the open message is updated only when the message open before the click had the same id |
| AdminMessages.View | src/components/AdminMessages.jsx:803-808 | opening a message shows it, marked read when it was unread and the write succeeded; the list changes as in the as-written handler |
| AdminMessages.ViewLeavesDetailUnread | src/components/AdminMessages.jsx:803-822 | as written, opening an unread message with nothing open before marks its list entry read while the detail view still shows it unread |
| AdminMessages.ViewShowsListEntry | src/components/AdminMessages.jsx:803-808 | corrected, the open message equals its list entry after opening, and it is read |
| AdminMessages.DetailMarkAsWritten | src/components/AdminMessages.jsx:1087-1106 | the detail view's mark button as written: the list changes as `Mark` with the flag opposite to the open message's; a failed write leaves the view closed; a successful one reopens it on an object carrying only the flag |
| AdminMessages.DetailMark | src/components/AdminMessages.jsx:1087-1106 | the detail view's mark button as intended: the view is closed and the message's list entries take the flag opposite to the one it was opened with; the list changes as in the as-written button |
| AdminMessages.DetailMarkReopensBlank | src/components/AdminMessages.jsx:1087-1106 | as written a successful detail-view mark shows a message with no sender, email or text; corrected the view stays closed |
| AdminMessages.MarkedMessageFiltered | src/components/AdminMessages.jsx:810-881 | a marked message that matches the search is listed under the matching filter |
| AdminMessages.Delete | src/components/AdminMessages.jsx:840-856 | a confirmed, successful delete removes the message with that id, keeps the others in order, decrements the total by exactly one and clears the open message if it was that one; with unique ids the page loses exactly one row; page, size, cursors, `hasMore`, filter and search are kept; otherwise nothing changes |
| AdminMessages.StatCardClick | src/components/AdminMessages.jsx:858-862 | the card's status becomes the filter, page 1, cursors cleared |
| AdminMessages.FilterSelect | src/components/AdminMessages.jsx:925-928 | the filter dropdown sets the filter and keeps the page number, the cursors and the loaded page |
| AdminMessages.FilterSelectKeepsPage | src/components/AdminMessages.jsx:925-928 | after the dropdown the effect refetches nothing, so the new filter applies to the page already loaded |
| AdminMessages.PageSizeChange | src/components/AdminMessages.jsx:891-895 | the new size, page 1, cursors cleared |
| AdminMessages.StatusCount | src/components/AdminMessages.jsx:864-867 | the 'all' card shows the store-wide total; any other card a count between 0 and the loaded page's length, which is 0 exactly when no loaded message has `read` equal to `status === 'read'` |
| AdminMessages.CardsWithinPage | src/components/AdminMessages.jsx:864-867 | whatever the flags, the read and unread cards never add up to more than the loaded page |
| AdminMessages.ReadPlusUnread | src/components/AdminMessages.jsx:864-867 | when every loaded message has a flag, the read and unread counts add up to the loaded page |
| AdminMessages.MissingFlagUncounted | src/components/AdminMessages.jsx:864-878 | a message with no flag is in neither count (strict comparison) though the 'unread' filter lists it |
| AdminMessages.UnreadListed | src/components/AdminMessages.jsx:869-881 | a named message with a false flag is listed under 'unread' when nothing is searched |
| Contact.ErrorText | src/components/Contact.jsx:434-438 | every validation failure has a non-empty message |
| Contact.EmailShapeMatches | src/components/Contact.jsx:436 | testing at the first `@` agrees with the pattern `^[^@\s]+@[^@\s]+\.[^@\s]+$` |
| Contact.PhoneShape | src/components/Contact.jsx:437 | `^\+?\d{7,15}$`: seven to fifteen ASCII digits, alone or after one plus sign |
| Contact.PhoneIgnoresSpaces | src/components/Contact.jsx:437 | in a phone with other characters, white space anywhere makes no difference to the check |
| Contact.BlankPhoneRejected | src/components/Contact.jsx:437 | a phone of only white space is not empty, so it is checked, and it fails |
| Contact.Validate | src/components/Contact.jsx:433-440 | the first failing check in the order name, email present, email shape, phone, message, each as an if-and-only-if; none exactly when all pass |
| Contact.ValidateText | src/components/Contact.jsx:433-440 | the returned string is empty exactly when every check passes |
| Contact.PaddedEmailInvalid | src/components/Contact.jsx:435-436 | the shape is tested on the untrimmed value: an email with a leading space is rejected |
| Contact.HandleChange | src/components/Contact.jsx:426-429 | editing a field sets only that field and clears the inline error |
| Contact.HandleChangeEdits | src/components/Contact.jsx:426-429 | typing into one field twice keeps only the last value; edits to two different fields commute |
| Contact.SendMessage | src/components/Contact.jsx:442-468 | a validation error writes nothing and shows an error modal; a successful write stores the fields with `read: false` and empties the form; a failed write keeps the form and shows the error modal |
| Contact.SentMessageListedUnread | src/components/Contact.jsx:451-455 | a message sent through the form shows up on the admin screen under 'unread' |
| CommercialProjects.FilteredProjects | src/components/CommercialProjects.jsx:517-519 | 'all' keeps every project; any other filter keeps exactly the projects of that category, in order |
| CommercialProjects.AllMedia | src/components/CommercialProjects.jsx:521-523 | the flattened list is as long as the projects' media together |
| CommercialProjects.AllMediaAppend | src/components/CommercialProjects.jsx:521-523 | flattening distributes over concatenation of project lists |
| CommercialProjects.AllMediaAt | src/components/CommercialProjects.jsx:521-523 | media item j of project k sits at that project's offset plus j, tagged with its project's title |
| CommercialProjects.Next | src/components/CommercialProjects.jsx:535-537 | `(i + 1) % n` stays in 0..n-1: one step forward, wrapping to 0 |
| CommercialProjects.Prev | src/components/CommercialProjects.jsx:539-541 | `(i - 1 + n) % n` stays in 0..n-1: one step back, wrapping to n-1 |
| CommercialProjects.NextPrevInverse | src/components/CommercialProjects.jsx:535-541 | next after prev and prev after next are the identity |
| CommercialProjects.ArrowsStayOnlyWhenSingle | src/components/CommercialProjects.jsx:535-541 | each arrow stays on the same item exactly when there is a single item |
| CommercialProjects.FullCircle | src/components/CommercialProjects.jsx:535-537 | n presses of next return to the starting item |
| CommercialProjects.HandleKey | src/components/CommercialProjects.jsx:543-551 | Escape closes, ArrowRight is next, ArrowLeft is prev, any other key changes nothing; the index stays inside the list |
| CommercialProjects.PressKeys | src/components/CommercialProjects.jsx:543-556 | any run of key presses on a valid lightbox keeps its index inside the list while open, keeps the media type, and leaves a closed lightbox alone |
| CommercialProjects.CounterInRange | src/components/CommercialProjects.jsx:662-664 | after any run of key presses the counter of an open lightbox reads between 1 and n |
| CommercialProjects.OpenLightbox | src/components/CommercialProjects.jsx:525-529 | opening sets the lightbox open at the given index and media type |
| CommercialProjects.OpenFromCardAsWritten | src/components/CommercialProjects.jsx:597 | the card's click opens the lightbox at index 0, whichever card it is |
| CommercialProjects.OpenSecondCardShowsFirstProject | src/components/CommercialProjects.jsx:597 | with every category shown, clicking the second card opens the first project's media |
| CommercialProjects.OpenFromCard | src/components/CommercialProjects.jsx:525-529 | opening from card k lands on that card's first media item, tagged with its title |
| Reviews.Row | src/components/AdminReviews.jsx:355-356 | star i of a row is filled exactly when i < rating |
| Reviews.RowCount | src/components/AdminReviews.jsx:355-356 | such a row fills the rating's number of stars, clamped to the row's length |
| Reviews.AdminStarsCount | src/components/AdminReviews.jsx:355-356 | an admin card shows `rating` filled stars, clamped into 0..5 |
| Reviews.FormStars | src/components/ReviewForm.jsx:489 | star k is filled exactly when k <= the hovered star, or the chosen rating when nothing is hovered |
| Reviews.FormStarsCount | src/components/ReviewUsButton.jsx:600 | hovering star h lights exactly h stars whatever was chosen; with nothing hovered the rating's stars are lit |
| AdminReviews.Initial | src/components/AdminReviews.jsx:202 | the screen opens on the pending tab with nothing loaded |
| AdminReviews.ComputeStats | src/components/AdminReviews.jsx:226-233 | total is the number of reviews loaded, approved counts the approved ones, and approved + pending = total |
| AdminReviews.Reload | src/components/AdminReviews.jsx:213-239 | a successful load shows the whole store with its tallies; a failed one keeps the screen |
| AdminReviews.FilteredReviews | src/components/AdminReviews.jsx:274-278 | 'approved' keeps the approved reviews, 'pending' the others, any other tab all of them, in order |
| AdminReviews.TabsPartition | src/components/AdminReviews.jsx:226-233 | the approved and pending tabs split the reviews (counts and multisets), and after a load their sizes are the tallies |
| AdminReviews.PendingTabMembers | src/components/AdminReviews.jsx:274-278 | a review is under 'pending' exactly when it is not approved, and under 'approved' exactly when it is |
| AdminReviews.SetApproval | src/components/AdminReviews.jsx:213-261 | approve and reject write the flag on exactly that review; a successful reload shows the store with its tallies on the same tab, a failed reload keeps the screen; a failed write changes nothing |
| AdminReviews.Toggle | src/components/AdminReviews.jsx:385 | the show/hide button: on a successful write every stored copy of the review takes the flag opposite to the clicked one, the rest of the store and its length are unchanged; a successful reload shows the store with its tallies on the same tab, a failed reload keeps the screen; a failed write changes nothing |
| AdminReviews.ToggleFlips | src/components/AdminReviews.jsx:385 | toggling flips the review's stored flag |
| AdminReviews.Delete | src/components/AdminReviews.jsx:263-272 | a confirmed, successful delete removes the review from the store; a successful reload shows the store with its tallies on the same tab, a failed reload keeps the screen; otherwise nothing changes |
| AdminReviews.SelectTab | src/components/AdminReviews.jsx:202 | switching tabs changes nothing but the tab |
| GalleryUpload.Reload | src/components/AdminGalleryUpload.jsx:448-458 | a successful load shows the whole store; a failed one keeps the list |
| GalleryUpload.Submit | src/components/AdminGalleryUpload.jsx:446-483 | an empty name or URL sets 'Please fill in all fields' and writes nothing; a successful add stores the item, resets the form to name '', URL '', type image, hides it and clears the error; the list shows the store after a successful reload and stays as it was after a failed one; editing, search and filter are kept; a failed write shows the store's error |
| GalleryUpload.SubmitKeepsOrder | src/components/AdminGalleryUpload.jsx:471-478 | a newer item added to a newest-first store keeps it newest first |
| GalleryUpload.Edit | src/components/AdminGalleryUpload.jsx:519-526 | edit copies exactly name, URL and type into the form and marks the item as being edited |
| GalleryUpload.Update | src/components/AdminGalleryUpload.jsx:446-504 | no item being edited: nothing happens; otherwise only the edited item's name, URL and type take the form's values, editing ends and the form is reset; the list shows the store after a successful reload and stays after a failed one; the error, the form's visibility, search and filter are kept; a failed write shows the store's error |
| GalleryUpload.EditThenSaveIsIdentity | src/components/AdminGalleryUpload.jsx:485-526 | opening an item for editing and saving it untouched leaves the store as it was |
| GalleryUpload.Delete | src/components/AdminGalleryUpload.jsx:446-517 | a confirmed, successful delete removes the item from the store; only the list changes on screen, to the store after a successful reload, and a failed reload keeps the screen; a failed delete shows the store's error |
| GalleryUpload.FilteredMedia | src/components/AdminGalleryUpload.jsx:528-532 | an item is shown exactly when its name contains the search case-insensitively and its type passes the filter, in order; a name shorter than the search is never shown |
| GalleryUpload.NoSearchShowsAll | src/components/AdminGalleryUpload.jsx:528-532 | with no search and every type, the whole list is shown |
| OurProjects.FetchMedia | src/components/OurProjects.jsx:217-230 | a reset load replaces the list with the newest six; any other load appends the batch after the last document; `hasMore` exactly when the batch is full; the cursor becomes the batch's last document, or none for an empty batch |
| OurProjects.LoadMore | src/components/OurProjects.jsx:237-240 | Load More does nothing while loading or when there is nothing more; otherwise it is a non-reset load |
| OurProjects.MountLoadsNewest | src/components/OurProjects.jsx:232-235 | the first load shows the newest six items and sets up the cursor |
| OurProjects.LoadMoreAppendsNext | src/components/OurProjects.jsx:217-240 | whenever Load More is offered a cursor is held, and each Load More appends exactly the next six items of the store (or what is left), keeping the list a newest prefix of the store with its cursor on the last item |
| OurProjects.IsVideoUrl | src/components/OurProjects.jsx:256-257 | the video-extension pattern: the URL's last characters, case-folded, are `.mp4`, `.webm` or `.mov` |
| OurProjects.Images | src/components/OurProjects.jsx:256 | an item is in the image list exactly when it is declared an image or has a URL without a video extension |
| OurProjects.Videos | src/components/OurProjects.jsx:257 | an item is in the video list exactly when it is declared a video or has a URL with a video extension |
| OurProjects.EveryItemListed | src/components/OurProjects.jsx:256-257 | every item with a URL lands in at least one list |
| OurProjects.BothListsWhenTypeDisagrees | src/components/OurProjects.jsx:256-257 | a declared image or video with a URL is in both lists exactly when its type disagrees with its extension: the split is not a partition |
| ReviewForm.Submit | src/components/ReviewForm.jsx:388-424 | an empty name, location or text, or a 0 rating, writes nothing and shows 'Please fill in all fields'; success writes `approved: false` and empties the form; a failed write keeps the form |
| ReviewForm.SubmittedIsPending | src/components/ReviewForm.jsx:401-405 | a submitted review appears under the moderation screen's pending tab and not under approved |
| ReviewForm.RatingClick | src/components/ReviewForm.jsx:381-386 | clicking star k sets the rating to k and nothing else |
| ReviewForm.ClickThenLeave | src/components/ReviewForm.jsx:489-492 | after clicking star k and leaving the picker, stars 1..k are lit |
| ReviewForm.InputChange | src/components/ReviewForm.jsx:374-379 | a text input changes only its own field |
| ReviewUsButton.Submit | src/components/ReviewUsButton.jsx:472-515 | a 0 rating or empty text writes nothing and shows the error line; success writes `approved: false`, empties the form and shows the thanks line; a failed write keeps the form |
| ReviewUsButton.NameAndEmailUnchecked | src/components/ReviewUsButton.jsx:475-478 | name and email play no part in whether a review is written |
| ReviewUsButton.CloseModal | src/components/ReviewUsButton.jsx:517-526 | closing always closes, empties the form and clears the message |
| ReviewUsButton.CloseDiscards | src/components/ReviewUsButton.jsx:472-526 | closing after any submission leaves the same state as closing before it: an empty form |
| ReviewUsButton.RatingClick | src/components/ReviewUsButton.jsx:465-470 | clicking star k sets the rating to k and nothing else |
| ReviewUsButton.HoverPreview | src/components/ReviewUsButton.jsx:600-603 | while star h is hovered, exactly h stars are lit whatever the rating |

## Left out

- The Firestore SDK (`getDocs`, `addDoc`, `updateDoc`, `deleteDoc`, `getCountFromServer`, `serverTimestamp`) is replaced by a sequence store. Outcomes, ids and timestamps are parameters. Drift between the count query and the page queries is a store concern.
- The store is strictly ordered by `createdAt`. Ties, which make `startAfter` depend on the store's secondary order, are not modelled.
- Concurrency is not modelled. This covers overlapping fetches, the double page-1 fetch on mount, and the `loading` flags of the admin screens. Each handler is one atomic step. The exception is the messages screen's mark handlers: they read the open message from the render that started them, as `AdminMessages.MarkFrom` models.
- The timers that auto-close modals and messages are not modelled, nor is the keydown listener's registration. `ReviewUsButton.Submit` stops before the two-second close.
- Browser prompts and scrolling are not modelled. `window.confirm` becomes a `confirmed` parameter; `window.scrollTo` is dropped.
- Date formatting (`toLocaleDateString`, `toISOString`) depends on the locale and clock, so it is left out, along with the `date` field it fills in.
- `toLowerCase` is an ASCII fold, and Unicode case mapping is not modelled. `\s` and `trim` use the ECMAScript white-space set by code point.
- `handleView` on the quotes screen is not modelled; it only opens the detail view. The messages screen's `handleView` is modelled as `AdminMessages.ViewAsWritten`.
- The focus and blur handlers of the contact form only drive floating labels.
- The lightbox's media type is set when it opens and is not updated by next or prev. The model carries it unchanged (`HandleKey` keeps it) but states nothing about which kind is rendered.
- Fields the source reads as strings are strings here. Non-string values a document could hold (a number in `name`, say) are not modelled.
- `OurProjects.FetchMedia`: a failed query is not modelled. What the store library does with a query resuming after no document is not modelled either; the model leaves the screen loading there. `OurProjects.LoadMoreAppendsNext` shows that Load More never reaches that case after the first load.
- `CursorPaging.ConsecutivePages` is stated for any two states that show pages k and k+1. `CursorPaging.WalkShowsSlicesAt` proves that the page-by-page walk reaches such states; the two are not composed into one statement about the walk.
- `CursorPaging.WalkShowsSlicesAt` requires the pages before page k to be full, which is when the cursor chain is unbroken. With a hole, `CursorPaging.MissingCursorFallsBack` describes what happens instead.

## Findings

| source | as written | input that shows it | evidently intended | confidence | as-written member | corrected member |
|---|---|---|---|---|---|---|
| src/components/CommercialProjects.jsx:597 | clicking any project card's image calls `openLightbox(0, …)`, so the lightbox opens at the first entry of the flattened media list | all categories shown, click the second card: the lightbox shows the first project's image | open at the clicked card's first media item, at its offset in the flattened list | not executed | CommercialProjects.OpenFromCardAsWritten | CommercialProjects.OpenFromCard |
| src/components/AdminMessages.jsx:817 | `handleView` opens the message and calls `markAsRead`, whose `selectedMessage?.id === id` test reads the open message of the render before the click | with no message open, open an unread message: its list entry turns read but the detail view still shows Unread | the detail view shows the message as read too | not executed | AdminMessages.ViewAsWritten | AdminMessages.View |
| src/components/AdminMessages.jsx:1101 | the detail view's mark buttons call the mark handler and then `setSelectedMessage(null)`; when the write lands the handler's stale test still passes, and `prev => ({ ...prev, read })` spreads `null` | open a message and press Mark as Read: the view closes, then reopens on an object with only `read` set, showing no sender, email or text | the view stays closed after the mark | not executed | AdminMessages.DetailMarkAsWritten | AdminMessages.DetailMark |

=== FILE: admin_messages.dfy ===
/**
 The contact-messages admin screen: the same cursor paging as the quotes screen,
 a read/unread filter and a search over the loaded page, marking a message read
 or unread, deleting, and the stat cards with their counts. The `read` flag is
 optional on a stored message; the filter tests it for truthiness while the
 counts compare it strictly against `true` / `false`.
 */
module AdminMessages {
  import opened Common
  import opened Text
  import opened DocStore
  import CursorPaging

  /** A stored contact message. */
  datatype Message = Message(
    name: Option<string>,
    email: Option<string>,
    phone: Option<string>,
    message: Option<string>,
    read: Option<bool>)

  /** The screen's state. `selected` is the message open in the detail view. */
  datatype Screen = Screen(
    paging: CursorPaging.PageState<Message>,
    filterStatus: string,
    searchTerm: string,
    selected: Option<Doc<Message>>)

  function Initial(): Screen
  {
    Screen(CursorPaging.Initial(10), "all", "", None)
  }

  /** The `read` flag is truthy. */
  predicate IsRead(m: Message)
  {
    m.read == Some(true)
  }

  /** Name, email or message text contains the term; there is no shortcut for an empty term,
      so a message with none of the three fields never matches. */
  predicate MatchesSearch(m: Message, searchTerm: string)
  {
    FieldMatches(m.name, searchTerm) || FieldMatches(m.email, searchTerm) || FieldMatches(m.message, searchTerm)
  }

  /** 'all' keeps everything, 'read' the truthy flags, 'unread' the falsy ones, anything else nothing. */
  predicate MatchesFilter(m: Message, filterStatus: string)
  {
    filterStatus == "all"
    || (filterStatus == "read" && IsRead(m))
    || (filterStatus == "unread" && !IsRead(m))
  }

  predicate Shown(filterStatus: string, searchTerm: string, d: Doc<Message>)
  {
    MatchesSearch(d.data, searchTerm) && MatchesFilter(d.data, filterStatus)
  }

  /** `filteredMessages`. */
  function FilteredMessages(messages: seq<Doc<Message>>, filterStatus: string, searchTerm: string): (r: seq<Doc<Message>>)
    ensures IsSubseq(r, messages)
    ensures forall i :: 0 <= i < |messages| ==> (messages[i] in r <==> Shown(filterStatus, searchTerm, messages[i]))
    ensures forall i :: 0 <= i < |r| ==> Shown(filterStatus, searchTerm, r[i])
    ensures forall i :: 0 <= i < |r| ==>
      r[i].data.name.Some? || r[i].data.email.Some? || r[i].data.message.Some?
  {
    Select(messages, d => Shown(filterStatus, searchTerm, d))
  }

  /** With an empty search a message is listed exactly when it has a name, an email or a text. */
  lemma EmptySearchNeedsAField(d: Doc<Message>)
    ensures Shown("all", "", d) <==> d.data.name.Some? || d.data.email.Some? || d.data.message.Some?
  {
    if d.data.name.Some? { IncludesEmpty(Lower(d.data.name.value)); }
    if d.data.email.Some? { IncludesEmpty(Lower(d.data.email.value)); }
    if d.data.message.Some? { IncludesEmpty(Lower(d.data.message.value)); }
  }

  /** Under one search, the 'read' and 'unread' filters split what 'all' lists. */
  lemma {:induction false} ReadUnreadSplit(messages: seq<Doc<Message>>, searchTerm: string)
    ensures |FilteredMessages(messages, "read", searchTerm)| + |FilteredMessages(messages, "unread", searchTerm)|
      == |FilteredMessages(messages, "all", searchTerm)|
    decreases |messages|
  {
    if messages != [] {
      ReadUnreadSplit(messages[1..], searchTerm);
    }
  }

  function SetRead(flag: bool): Message -> Message
  {
    (m: Message) => m.(read := Some(flag))
  }

  /** `markAsRead(id)` (`flag` true) and `markAsUnread(id)` (`flag` false); `ok` is whether the
      store accepted the update. */
  function Mark(sc: Screen, id: string, flag: bool, ok: bool): (r: Screen)
    ensures !ok ==> r == sc
    ensures var before := sc.paging.items; var after := r.paging.items;
      |after| == |before|
      && (forall i :: 0 <= i < |before| && before[i].id != id ==> after[i] == before[i])
      && (ok ==> forall i :: 0 <= i < |before| && before[i].id == id ==>
            after[i].id == id && after[i].createdAt == before[i].createdAt
            && after[i].data == before[i].data.(read := Some(flag)))
    ensures ok && sc.selected.Some? && sc.selected.value.id == id ==>
      r.selected == Some(sc.selected.value.(data := sc.selected.value.data.(read := Some(flag))))
    ensures !(sc.selected.Some? && sc.selected.value.id == id) ==> r.selected == sc.selected
    ensures r.paging.(items := sc.paging.items) == sc.paging
    ensures r.filterStatus == sc.filterStatus && r.searchTerm == sc.searchTerm
  {
    if !ok then sc
    else
      var sel := match sc.selected
        case Some(d) => if d.id == id then Some(d.(data := d.data.(read := Some(flag)))) else sc.selected
        case None => None;
      sc.(paging := sc.paging.(items := UpdateById(sc.paging.items, id, SetRead(flag))), selected := sel)
  }

  /** Marking the same way twice is the same as marking once. */
  lemma MarkIdempotent(sc: Screen, id: string, flag: bool)
    ensures Mark(Mark(sc, id, flag, true), id, flag, true) == Mark(sc, id, flag, true)
  {
    var once := Mark(sc, id, flag, true);
    var twice := Mark(once, id, flag, true);
    assert twice.paging.items == once.paging.items;
  }

  /** A marked message lands under the matching filter (when it matches the search). */
  lemma MarkedMessageFiltered(sc: Screen, id: string, flag: bool, i: nat)
    requires i < |sc.paging.items| && sc.paging.items[i].id == id
    requires MatchesSearch(sc.paging.items[i].data, sc.searchTerm)
    ensures var r := Mark(sc, id, flag, true);
      r.paging.items[i] in FilteredMessages(r.paging.items, if flag then "read" else "unread", sc.searchTerm)
      && r.paging.items[i] !in FilteredMessages(r.paging.items, if flag then "unread" else "read", sc.searchTerm)
  {
  }

  /** `{ ...prev, read: flag }` on the open message. Spreading no message leaves an object that
      carries only the flag; it is written here with an empty id and creation time 0. */
  function Spread(prev: Option<Doc<Message>>, flag: bool): Doc<Message>
  {
    match prev
    case Some(d) => d.(data := d.data.(read := Some(flag)))
    case None => Doc("", 0, Message(None, None, None, None, Some(flag)))
  }

  /** `markAsRead(id)` / `markAsUnread(id)` run from a render that saw `seen` as the open message.
      Once the write lands the list entry is updated; the open message is updated through
      `prev => ({ ...prev, read })` when `seen` had that id, whatever is open by then. */
  function MarkFrom(sc: Screen, seen: Option<Doc<Message>>, id: string, flag: bool, ok: bool): (r: Screen)
    ensures r.paging == Mark(sc, id, flag, ok).paging
    ensures ok && seen.Some? && seen.value.id == id && sc.selected.Some? ==>
      r.selected == Some(sc.selected.value.(data := sc.selected.value.data.(read := Some(flag))))
    ensures ok && seen.Some? && seen.value.id == id && sc.selected.None? ==>
      r.selected == Some(Doc("", 0, Message(None, None, None, None, Some(flag))))
    ensures !(ok && seen.Some? && seen.value.id == id) ==> r.selected == sc.selected
    ensures r.filterStatus == sc.filterStatus && r.searchTerm == sc.searchTerm
  {
    var marked := Mark(sc, id, flag, ok);
    var sel := if ok && seen.Some? && seen.value.id == id then Some(Spread(sc.selected, flag)) else sc.selected;
    marked.(selected := sel)
  }

  /** When the render that started the mark is still the current one, the two agree. */
  lemma MarkFromCurrent(sc: Screen, id: string, flag: bool, ok: bool)
    ensures MarkFrom(sc, sc.selected, id, flag, ok) == Mark(sc, id, flag, ok)
  {
  }

  /** `handleView(message)` as written: it opens `d` and, if `d` is unread, marks it read. The
      mark runs from the render before the click, so it sees the previous open message, not `d`. */
  function ViewAsWritten(sc: Screen, d: Doc<Message>, ok: bool): (r: Screen)
    ensures r.selected.Some? && r.selected.value.id == d.id
    ensures !(sc.selected.Some? && sc.selected.value.id == d.id) ==> r.selected == Some(d)
    ensures IsRead(d.data) ==> r.paging == sc.paging
    ensures !IsRead(d.data) ==> r.paging == Mark(sc, d.id, true, ok).paging
    ensures r.filterStatus == sc.filterStatus && r.searchTerm == sc.searchTerm
  {
    var showing := sc.(selected := Some(d));
    if IsRead(d.data) then showing else MarkFrom(showing, sc.selected, d.id, true, ok)
  }

  /** `handleView` as evidently intended: the open message and its list entry are marked together. */
  function View(sc: Screen, d: Doc<Message>, ok: bool): (r: Screen)
    ensures r.selected == Some(if ok && !IsRead(d.data) then d.(data := d.data.(read := Some(true))) else d)
    ensures r.paging == ViewAsWritten(sc, d, ok).paging
    ensures r.filterStatus == sc.filterStatus && r.searchTerm == sc.searchTerm
  {
    var showing := sc.(selected := Some(d));
    if IsRead(d.data) then showing else Mark(showing, d.id, true, ok)
  }

  /** As written, opening an unread message with nothing open before marks its list entry read
      while the detail view still shows it unread. */
  lemma ViewLeavesDetailUnread(sc: Screen, d: Doc<Message>, i: nat)
    requires sc.selected.None? && !IsRead(d.data)
    requires i < |sc.paging.items| && sc.paging.items[i] == d
    ensures var r := ViewAsWritten(sc, d, true);
      r.selected == Some(d) && !IsRead(r.selected.value.data) && IsRead(r.paging.items[i].data)
  {
  }

  /** Corrected, the detail view shows exactly what the list shows for the opened message. */
  lemma ViewShowsListEntry(sc: Screen, d: Doc<Message>, ok: bool, i: nat)
    requires i < |sc.paging.items| && sc.paging.items[i] == d
    requires ok || IsRead(d.data)
    ensures var r := View(sc, d, ok);
      r.selected == Some(r.paging.items[i]) && IsRead(r.paging.items[i].data)
  {
  }

  /** The detail view's Mark as Read / Mark as Unread button as written: it starts the mark for the
      open message (its flag picks the direction) and closes the view. The mark's closure still
      sees the message, so once the write lands it spreads the now empty selection. */
  function DetailMarkAsWritten(sc: Screen, ok: bool): (r: Screen)
    requires sc.selected.Some?
    ensures r.paging == Mark(sc, sc.selected.value.id, !IsRead(sc.selected.value.data), ok).paging
    ensures !ok ==> r.selected.None?
    ensures ok ==> r.selected == Some(Doc("", 0, Message(None, None, None, None, Some(!IsRead(sc.selected.value.data)))))
    ensures r.filterStatus == sc.filterStatus && r.searchTerm == sc.searchTerm
  {
    var d := sc.selected.value;
    MarkFrom(sc.(selected := None), sc.selected, d.id, !IsRead(d.data), ok)
  }

  /** The detail button as evidently intended: the message is marked and the view stays closed. */
  function DetailMark(sc: Screen, ok: bool): (r: Screen)
    requires sc.selected.Some?
    ensures r.selected.None?
    ensures r.paging == DetailMarkAsWritten(sc, ok).paging
    ensures var id := sc.selected.value.id; var before := sc.paging.items; var after := r.paging.items;
      ok ==> forall i :: 0 <= i < |before| && before[i].id == id ==>
        IsRead(after[i].data) == !IsRead(sc.selected.value.data)
    ensures r.filterStatus == sc.filterStatus && r.searchTerm == sc.searchTerm
  {
    var d := sc.selected.value;
    Mark(sc, d.id, !IsRead(d.data), ok).(selected := None)
  }

  /** As written, a successful detail-view mark reopens the detail view on a message with no
      sender, email or text; corrected, the view stays closed. */
  lemma DetailMarkReopensBlank(sc: Screen)
    requires sc.selected.Some?
    ensures var r := DetailMarkAsWritten(sc, true);
      r.selected.Some? && r.selected.value.data.name.None? && r.selected.value.data.email.None?
      && r.selected.value.data.message.None?
    ensures DetailMark(sc, true).selected.None?
  {
  }

  /** `handleDelete(id)`: `confirmed` is the prompt's answer and `ok` whether the store
      deleted the document. The count drops by one, the open message is cleared if it was
      the one deleted, and everything else is kept; with unique ids the page loses exactly
      one row. */
  function Delete(sc: Screen, id: string, confirmed: bool, ok: bool): (r: Screen)
    ensures !(confirmed && ok) ==> r == sc
    ensures confirmed && ok ==>
      && !HasId(r.paging.items, id)
      && (forall i :: 0 <= i < |sc.paging.items| && sc.paging.items[i].id != id ==> sc.paging.items[i] in r.paging.items)
      && (forall i :: 0 <= i < |r.paging.items| ==> r.paging.items[i] in sc.paging.items)
      && IsSubseq(r.paging.items, sc.paging.items)
      && (UniqueIds(sc.paging.items) && HasId(sc.paging.items, id) ==> |r.paging.items| == |sc.paging.items| - 1)
      && r.paging.totalItems == sc.paging.totalItems - 1
      && r.paging.(items := sc.paging.items, totalItems := sc.paging.totalItems) == sc.paging
      && r.filterStatus == sc.filterStatus && r.searchTerm == sc.searchTerm
    ensures confirmed && ok && sc.selected.Some? && sc.selected.value.id == id ==> r.selected.None?
    ensures !(sc.selected.Some? && sc.selected.value.id == id) ==> r.selected == sc.selected
  {
    RemoveLoaded(sc.paging.items, id);
    if !confirmed || !ok then sc
    else
      var p := sc.paging.(items := RemoveById(sc.paging.items, id), totalItems := sc.paging.totalItems - 1);
      if sc.selected.Some? && sc.selected.value.id == id
      then sc.(paging := p, selected := None)
      else sc.(paging := p)
  }

  /** `handleStatCardClick(status)`. */
  function StatCardClick(sc: Screen, status: string): (r: Screen)
    ensures r.filterStatus == status
    ensures r.paging.currentPage == 1 && r.paging.cursors == []
    ensures r.paging.pageSize == sc.paging.pageSize && r.paging.items == sc.paging.items
    ensures r.searchTerm == sc.searchTerm && r.selected == sc.selected
  {
    sc.(filterStatus := status, paging := CursorPaging.ResetPaging(sc.paging))
  }

  /** The filter dropdown, `setFilterStatus(value)` alone: unlike a stat card it keeps the
      page number and the cursors. */
  function FilterSelect(sc: Screen, value: string): (r: Screen)
    ensures r.filterStatus == value
    ensures r.paging == sc.paging
    ensures r.searchTerm == sc.searchTerm && r.selected == sc.selected
  {
    sc.(filterStatus := value)
  }

  /** `handlePageSizeChange(size)`. */
  function PageSizeChange(sc: Screen, size: int): (r: Screen)
    ensures r.paging.pageSize == size && r.paging.currentPage == 1 && r.paging.cursors == []
    ensures r.filterStatus == sc.filterStatus && r.searchTerm == sc.searchTerm
  {
    sc.(paging := CursorPaging.ChangePageSize(sc.paging, size))
  }

  /** `msg.read === (status === 'read')`: a strict comparison, so a missing flag is counted
      under neither card. */
  predicate FlagIs(flag: bool, d: Doc<Message>)
  {
    d.data.read == Some(flag)
  }

  /** `getStatusCount(status)`: the store-wide total for 'all'; any other card counts the
      loaded messages whose flag is exactly `status == 'read'`. */
  function StatusCount(sc: Screen, status: string): (r: int)
    ensures status == "all" ==> r == sc.paging.totalItems
    ensures status != "all" ==> 0 <= r <= |sc.paging.items|
    ensures status != "all" ==>
      (r == 0 <==> forall i :: 0 <= i < |sc.paging.items| ==> sc.paging.items[i].data.read != Some(status == "read"))
  {
    var p := (d: Doc<Message>) => FlagIs(status == "read", d);
    CountZero(sc.paging.items, p);
    if status == "all" then sc.paging.totalItems
    else Count(sc.paging.items, p)
  }

  /** Whatever the flags, the read and unread cards never add up to more than the loaded
      page; with a message lacking its flag they add up to less. */
  lemma CardsWithinPage(sc: Screen)
    ensures StatusCount(sc, "read") + StatusCount(sc, "unread") <= |sc.paging.items|
  {
    var s := sc.paging.items;
    var p := (d: Doc<Message>) => FlagIs(true, d);
    FilterPartition(s, p);
    forall i | 0 <= i < |s| && FlagIs(false, s[i])
      ensures Not(p)(s[i])
    {
      assert Not(p)(s[i]) == !p(s[i]);
    }
    FilterMono(s, d => FlagIs(false, d), Not(p));
    assert StatusCount(sc, "unread") == |Filter(s, d => FlagIs(false, d))| by {
      FilterExt(s, d => FlagIs("unread" == "read", d), d => FlagIs(false, d));
    }
    assert StatusCount(sc, "read") == |Filter(s, p)| by {
      FilterExt(s, d => FlagIs("read" == "read", d), p);
    }
  }

  /** When every loaded message carries a flag, the read and unread cards add up to the
      loaded page. */
  lemma ReadPlusUnread(sc: Screen)
    requires forall i :: 0 <= i < |sc.paging.items| ==> sc.paging.items[i].data.read.Some?
    ensures StatusCount(sc, "read") + StatusCount(sc, "unread") == |sc.paging.items|
  {
    var s := sc.paging.items;
    var p := (d: Doc<Message>) => FlagIs(true, d);
    FilterPartition(s, p);
    forall i | 0 <= i < |s|
      ensures Not(p)(s[i]) == FlagIs(false, s[i])
    {
      var d := s[i];
      assert Not(p)(d) == !p(d);
      assert p(d) == FlagIs(true, d);
      if d.data.read.value {
        assert FlagIs(true, d) && !FlagIs(false, d);
      } else {
        assert !FlagIs(true, d) && FlagIs(false, d);
      }
    }
    FilterExt(s, Not(p), d => FlagIs(false, d));
  }

  /** A named message with a false flag is listed under 'unread' when nothing is searched. */
  lemma UnreadListed(d: Doc<Message>)
    requires d.data.name.Some? && d.data.read == Some(false)
    ensures FilteredMessages([d], "unread", "") == [d]
  {
    IncludesEmpty(Lower(d.data.name.value));
  }

  /** A message without a flag is left out of both counts although the 'unread' filter lists it. */
  lemma MissingFlagUncounted(d: Doc<Message>)
    requires d.data.read.None? && d.data.name.Some?
    ensures var sc := Initial().(paging := CursorPaging.Initial(10).(items := [d]));
      StatusCount(sc, "read") + StatusCount(sc, "unread") == 0
      && FilteredMessages(sc.paging.items, "unread", "") == [d]
  {
    IncludesEmpty(Lower(d.data.name.value));
  }

  /** Choosing a filter in the dropdown refetches nothing: the effect keeps the loaded page,
      so the filter applies to the rows already shown and a later page stays where it is. */
  lemma FilterSelectKeepsPage(store: seq<Doc<Message>>, sc: Screen, value: string)
    requires sc.paging.currentPage >= 1 && sc.paging.pageSize >= 1
    ensures var r := FilterSelect(sc, value);
      CursorPaging.Effect(store, sc.paging, r.paging) == sc.paging
      && FilteredMessages(r.paging.items, r.filterStatus, r.searchTerm) == FilteredMessages(sc.paging.items, value, sc.searchTerm)
  {
  }
}

=== FILE: admin_quotes.dfy ===
/**
 The quote-requests admin screen: one page of quotes loaded through the shared
 cursor paging, a status filter and a free-text search applied to the loaded
 page, status changes and deletes applied to the store and mirrored locally,
 and the status tiles with their counts.
 */
module AdminQuotes {
  import opened Common
  import opened Text
  import opened DocStore
  import CursorPaging

  /** The fields of a quote request the screen reads; the others are only displayed. */
  datatype Quote = Quote(fullName: Option<string>, email: Option<string>, description: Option<string>, status: string)

  /** The screen's state. `selected` is the quote open in the detail modal. */
  datatype Screen = Screen(
    paging: CursorPaging.PageState<Quote>,
    statusFilter: string,
    searchTerm: string,
    selected: Option<Doc<Quote>>,
    showModal: bool)

  /** On mount: page 1 of size 10, every status, no search, no modal. */
  function Initial(): Screen
  {
    Screen(CursorPaging.Initial(10), "all", "", None, false)
  }

  predicate MatchesStatus(q: Quote, statusFilter: string)
  {
    statusFilter == "all" || q.status == statusFilter
  }

  /** An empty search matches everything; otherwise name, email or description must contain it. */
  predicate MatchesSearch(q: Quote, searchTerm: string)
  {
    searchTerm == ""
    || FieldMatches(q.fullName, searchTerm)
    || FieldMatches(q.email, searchTerm)
    || FieldMatches(q.description, searchTerm)
  }

  predicate Shown(statusFilter: string, searchTerm: string, d: Doc<Quote>)
  {
    MatchesStatus(d.data, statusFilter) && MatchesSearch(d.data, searchTerm)
  }

  /** `filteredQuotes`: the loaded quotes that pass both the status filter and the search, in order. */
  function FilteredQuotes(quotes: seq<Doc<Quote>>, statusFilter: string, searchTerm: string): (r: seq<Doc<Quote>>)
    ensures IsSubseq(r, quotes)
    ensures forall i :: 0 <= i < |quotes| ==> (quotes[i] in r <==> Shown(statusFilter, searchTerm, quotes[i]))
    ensures forall i :: 0 <= i < |r| ==> Shown(statusFilter, searchTerm, r[i])
    ensures statusFilter != "all" ==> forall i :: 0 <= i < |r| ==> r[i].data.status == statusFilter
  {
    Select(quotes, d => Shown(statusFilter, searchTerm, d))
  }

  /** With every status and an empty search, the whole loaded page is listed. */
  lemma AllShowsPage(quotes: seq<Doc<Quote>>)
    ensures FilteredQuotes(quotes, "all", "") == quotes
  {
    FilterAll(quotes, d => Shown("all", "", d));
  }

  /** The search ignores letter case: searching for the folded term lists the same quotes. */
  lemma SearchIgnoresCase(quotes: seq<Doc<Quote>>, statusFilter: string, searchTerm: string)
    ensures FilteredQuotes(quotes, statusFilter, Lower(searchTerm)) == FilteredQuotes(quotes, statusFilter, searchTerm)
  {
    LowerIdempotent(searchTerm);
    FilterExt(quotes, d => Shown(statusFilter, Lower(searchTerm), d), d => Shown(statusFilter, searchTerm, d));
  }

  function SetStatus(newStatus: string): Quote -> Quote
  {
    (q: Quote) => q.(status := newStatus)
  }

  /** `handleStatusChange(id, newStatus)`; `ok` is whether the store accepted the update.
      On failure (only logged) nothing changes. */
  function ChangeStatus(sc: Screen, id: string, newStatus: string, ok: bool): (r: Screen)
    ensures !ok ==> r == sc
    ensures var before := sc.paging.items; var after := r.paging.items;
      |after| == |before|
      && (forall i :: 0 <= i < |before| && before[i].id != id ==> after[i] == before[i])
      && (forall i :: 0 <= i < |before| && before[i].id == id ==>
            after[i].id == id && after[i].createdAt == before[i].createdAt
            && after[i].data == before[i].data.(status := if ok then newStatus else before[i].data.status))
    ensures sc.selected.Some? && sc.selected.value.id == id && ok ==>
      r.selected == Some(sc.selected.value.(data := sc.selected.value.data.(status := newStatus)))
    ensures !(sc.selected.Some? && sc.selected.value.id == id) ==> r.selected == sc.selected
    ensures r.paging.(items := sc.paging.items) == sc.paging
    ensures r.statusFilter == sc.statusFilter && r.searchTerm == sc.searchTerm && r.showModal == sc.showModal
  {
    if !ok then sc
    else
      var sel := match sc.selected
        case Some(d) => if d.id == id then Some(d.(data := d.data.(status := newStatus))) else sc.selected
        case None => None;
      sc.(paging := sc.paging.(items := UpdateById(sc.paging.items, id, SetStatus(newStatus))),
          selected := sel)
  }

  /** After a successful change, filtering by the new status (with no search) lists the
      changed quote. */
  lemma ChangedQuoteShownUnderNewStatus(sc: Screen, id: string, newStatus: string, i: nat)
    requires i < |sc.paging.items| && sc.paging.items[i].id == id
    ensures var r := ChangeStatus(sc, id, newStatus, true);
      r.paging.items[i] in FilteredQuotes(r.paging.items, newStatus, "")
  {
  }

  /** `handleDelete(id)`: `confirmed` is the answer to the confirmation prompt and `ok` whether
      the store deleted the document. The count drops by one, an open modal on that quote
      closes, and everything else is kept; with unique ids the page loses exactly one row. */
  function Delete(sc: Screen, id: string, confirmed: bool, ok: bool): (r: Screen)
    ensures !(confirmed && ok) ==> r == sc
    ensures confirmed && ok ==>
      && !HasId(r.paging.items, id)
      && (forall i :: 0 <= i < |sc.paging.items| && sc.paging.items[i].id != id ==> sc.paging.items[i] in r.paging.items)
      && (forall i :: 0 <= i < |r.paging.items| ==> r.paging.items[i] in sc.paging.items)
      && IsSubseq(r.paging.items, sc.paging.items)
      && (UniqueIds(sc.paging.items) && HasId(sc.paging.items, id) ==> |r.paging.items| == |sc.paging.items| - 1)
      && r.paging.totalItems == sc.paging.totalItems - 1
      && r.paging.(items := sc.paging.items, totalItems := sc.paging.totalItems) == sc.paging
      && r.statusFilter == sc.statusFilter && r.searchTerm == sc.searchTerm
    ensures confirmed && ok && sc.selected.Some? && sc.selected.value.id == id ==>
      r.selected.None? && !r.showModal
    ensures !(sc.selected.Some? && sc.selected.value.id == id) ==>
      r.selected == sc.selected && r.showModal == sc.showModal
  {
    RemoveLoaded(sc.paging.items, id);
    if !confirmed || !ok then sc
    else
      var p := sc.paging.(items := RemoveById(sc.paging.items, id), totalItems := sc.paging.totalItems - 1);
      if sc.selected.Some? && sc.selected.value.id == id
      then sc.(paging := p, showModal := false, selected := None)
      else sc.(paging := p)
  }

  /** `handleStatusTileClick(status)`: filter by the tile's status, back to page 1, no cursors. */
  function StatusTileClick(sc: Screen, status: string): (r: Screen)
    ensures r.statusFilter == status
    ensures r.paging.currentPage == 1 && r.paging.cursors == []
    ensures r.paging.pageSize == sc.paging.pageSize && r.paging.items == sc.paging.items
    ensures r.searchTerm == sc.searchTerm && r.selected == sc.selected
  {
    sc.(statusFilter := status, paging := CursorPaging.ResetPaging(sc.paging))
  }

  /** The status dropdown, `setStatusFilter(value)` alone: unlike a tile it keeps the page
      number and the cursors. */
  function StatusSelect(sc: Screen, value: string): (r: Screen)
    ensures r.statusFilter == value
    ensures r.paging == sc.paging
    ensures r.searchTerm == sc.searchTerm && r.selected == sc.selected && r.showModal == sc.showModal
  {
    sc.(statusFilter := value)
  }

  /** `handlePageSizeChange(size)`: the new size, page 1, no cursors. */
  function PageSizeChange(sc: Screen, size: int): (r: Screen)
    ensures r.paging.pageSize == size && r.paging.currentPage == 1 && r.paging.cursors == []
    ensures r.statusFilter == sc.statusFilter && r.searchTerm == sc.searchTerm
  {
    sc.(paging := CursorPaging.ChangePageSize(sc.paging, size))
  }

  predicate HasStatus(status: string, d: Doc<Quote>)
  {
    d.data.status == status
  }

  /** `getStatusCount(status)`: the store-wide total for 'all', otherwise a count over the
      loaded page only. */
  function StatusCount(sc: Screen, status: string): (r: int)
    ensures status == "all" ==> r == sc.paging.totalItems
    ensures status != "all" ==> 0 <= r <= |sc.paging.items|
    ensures status != "all" ==>
      (r == 0 <==> forall i :: 0 <= i < |sc.paging.items| ==> sc.paging.items[i].data.status != status)
  {
    var p := (d: Doc<Quote>) => HasStatus(status, d);
    CountZero(sc.paging.items, p);
    if status == "all" then sc.paging.totalItems
    else Count(sc.paging.items, p)
  }

  /** A status tile's number is the number of rows its filter lists on the loaded page
      when the search is empty; for 'all' it is the store-wide total instead. */
  lemma TileCountMatchesList(sc: Screen, status: string)
    ensures status != "all" ==> StatusCount(sc, status) == |FilteredQuotes(sc.paging.items, status, "")|
    ensures status == "all" ==> StatusCount(sc, status) == sc.paging.totalItems
  {
    if status != "all" {
      FilterExt(sc.paging.items, d => HasStatus(status, d), d => Shown(status, "", d));
    }
  }

  /** Clicking a tile while on a later page brings the effect to load the first page of the
      store, whatever cursors were held. */
  lemma TileClickLoadsFirstPage(store: seq<Doc<Quote>>, sc: Screen, status: string)
    requires sc.paging.pageSize >= 1 && sc.paging.currentPage != 1
    ensures var r := CursorPaging.Effect(store, sc.paging, StatusTileClick(sc, status).paging);
      r.items == Slice(store, 1, sc.paging.pageSize) && r.currentPage == 1
  {
  }

  /** Choosing a status in the dropdown refetches nothing: the effect keeps the loaded page,
      so the new filter applies to the rows already shown and a later page stays where it is. */
  lemma StatusSelectKeepsPage(store: seq<Doc<Quote>>, sc: Screen, value: string)
    requires sc.paging.currentPage >= 1 && sc.paging.pageSize >= 1
    ensures var r := StatusSelect(sc, value);
      CursorPaging.Effect(store, sc.paging, r.paging) == sc.paging
      && FilteredQuotes(r.paging.items, r.statusFilter, r.searchTerm) == FilteredQuotes(sc.paging.items, value, sc.searchTerm)
  {
  }
}

=== FILE: admin_reviews.dfy ===
/**
 The review moderation screen: every review loaded newest first, the
 total / approved / pending tallies computed on each load, the three tabs, and
 approve, reject, show/hide and delete, each of which writes to the store and
 then reloads.
 */
module AdminReviews {
  import opened Common
  import opened DocStore
  import opened Reviews

  datatype Stats = Stats(total: int, approved: int, pending: int)

  datatype Screen = Screen(reviews: seq<Doc<Review>>, activeTab: string, stats: Stats)

  /** The store and the screen together, since every action writes the one and reloads the other. */
  datatype World = World(store: seq<Doc<Review>>, screen: Screen)

  /** On mount the screen opens on the pending tab, with nothing loaded yet. */
  function Initial(): (r: Screen)
    ensures r.activeTab == "pending" && r.reviews == []
  {
    Screen([], "pending", Stats(0, 0, 0))
  }

  predicate IsApproved(d: Doc<Review>)
  {
    d.data.approved
  }

  /** The tallies `fetchReviews` computes from what it loaded. */
  function ComputeStats(reviews: seq<Doc<Review>>): (r: Stats)
    ensures r.total == |reviews|
    ensures r.approved + r.pending == r.total
    ensures r.approved == |Filter(reviews, IsApproved)|
  {
    FilterPartition(reviews, IsApproved);
    Stats(|reviews|, Count(reviews, IsApproved), Count(reviews, Not(IsApproved)))
  }

  /** `fetchReviews`: `ok` is whether the query succeeded; on failure the screen is kept. */
  function Reload(w: World, ok: bool): (r: World)
    ensures r.store == w.store && r.screen.activeTab == w.screen.activeTab
    ensures ok ==> r.screen.reviews == w.store && r.screen.stats == ComputeStats(w.store)
    ensures !ok ==> r == w
  {
    if ok then w.(screen := w.screen.(reviews := w.store, stats := ComputeStats(w.store))) else w
  }

  /** `filteredReviews`: 'approved' keeps the approved reviews, 'pending' the others, and any
      other tab keeps them all. */
  function FilteredReviews(reviews: seq<Doc<Review>>, tab: string): (r: seq<Doc<Review>>)
    ensures IsSubseq(r, reviews)
    ensures tab == "approved" ==> r == Filter(reviews, IsApproved)
    ensures tab == "pending" ==> r == Filter(reviews, Not(IsApproved))
    ensures tab != "approved" && tab != "pending" ==> r == reviews
  {
    if tab == "approved" then
      FilterIsSubseq(reviews, IsApproved);
      Filter(reviews, IsApproved)
    else if tab == "pending" then
      FilterIsSubseq(reviews, Not(IsApproved));
      Filter(reviews, Not(IsApproved))
    else
      FilterAll(reviews, (d: Doc<Review>) => true);
      FilterIsSubseq(reviews, (d: Doc<Review>) => true);
      reviews
  }

  /** The approved and pending tabs split the loaded reviews between them, and after a
      load their sizes are the approved and pending tallies. */
  lemma TabsPartition(w: World)
    ensures var rs := w.screen.reviews;
      |FilteredReviews(rs, "approved")| + |FilteredReviews(rs, "pending")| == |rs|
      && multiset(FilteredReviews(rs, "approved")) + multiset(FilteredReviews(rs, "pending")) == multiset(rs)
    ensures var r := Reload(w, true);
      |FilteredReviews(r.screen.reviews, "approved")| == r.screen.stats.approved
      && |FilteredReviews(r.screen.reviews, "pending")| == r.screen.stats.pending
  {
    FilterPartition(w.screen.reviews, IsApproved);
    FilterPartition(w.store, IsApproved);
  }

  /** Reviews listed under the pending tab are exactly those not approved. */
  lemma PendingTabMembers(reviews: seq<Doc<Review>>, i: nat)
    requires i < |reviews|
    ensures reviews[i] in FilteredReviews(reviews, "pending") <==> !reviews[i].data.approved
    ensures reviews[i] in FilteredReviews(reviews, "approved") <==> reviews[i].data.approved
  {
    if reviews[i] in FilteredReviews(reviews, "pending") {
      var r := FilteredReviews(reviews, "pending");
      var j :| 0 <= j < |r| && r[j] == reviews[i];
      assert Not(IsApproved)(r[j]);
    }
    var p: Doc<Review> -> bool := IsApproved;
    assert Not(p)(reviews[i]) == !p(reviews[i]);
    assert p(reviews[i]) == reviews[i].data.approved;
  }

  function SetApproved(flag: bool): Review -> Review
  {
    (r: Review) => r.(approved := flag)
  }

  /** `handleApprove` (`flag` true) and `handleReject` (`flag` false): write the flag, then
      reload. `updateOk` is whether the write succeeded (a failure skips the reload) and
      `loadOk` whether the reload did. */
  function SetApproval(w: World, id: string, flag: bool, updateOk: bool, loadOk: bool): (r: World)
    ensures !updateOk ==> r == w
    ensures updateOk ==>
      |r.store| == |w.store|
      && (forall i :: 0 <= i < |w.store| && w.store[i].id != id ==> r.store[i] == w.store[i])
      && (forall i :: 0 <= i < |w.store| && w.store[i].id == id ==>
            r.store[i].data == w.store[i].data.(approved := flag) && r.store[i].id == id)
    ensures updateOk && loadOk ==>
      r.screen.reviews == r.store && r.screen.stats == ComputeStats(r.store) && r.screen.activeTab == w.screen.activeTab
    ensures updateOk && !loadOk ==> r.screen == w.screen
  {
    if !updateOk then w
    else Reload(w.(store := UpdateById(w.store, id, SetApproved(flag))), loadOk)
  }

  /** The show/hide button: rejects an approved review and approves a pending one. Every stored
      copy of `d` gets the flag opposite to `d`'s; the rest of the store is untouched. */
  function Toggle(w: World, d: Doc<Review>, updateOk: bool, loadOk: bool): (r: World)
    ensures !updateOk ==> r == w
    ensures updateOk ==>
      |r.store| == |w.store|
      && (forall i :: 0 <= i < |w.store| && w.store[i].id != d.id ==> r.store[i] == w.store[i])
      && (forall i :: 0 <= i < |w.store| && w.store[i].id == d.id ==>
            r.store[i].id == d.id && r.store[i].data == w.store[i].data.(approved := !d.data.approved))
    ensures updateOk && loadOk ==>
      r.screen.reviews == r.store && r.screen.stats == ComputeStats(r.store) && r.screen.activeTab == w.screen.activeTab
    ensures updateOk && !loadOk ==> r.screen == w.screen
  {
    if d.data.approved then SetApproval(w, d.id, false, updateOk, loadOk)
    else SetApproval(w, d.id, true, updateOk, loadOk)
  }

  /** Toggling a review as loaded flips its flag in the store. */
  lemma ToggleFlips(w: World, i: nat, updateOk: bool, loadOk: bool)
    requires i < |w.store| && updateOk
    ensures Toggle(w, w.store[i], updateOk, loadOk).store[i].data.approved == !w.store[i].data.approved
  {
  }

  /** `handleDelete`: after confirmation, delete then reload. */
  function Delete(w: World, id: string, confirmed: bool, deleteOk: bool, loadOk: bool): (r: World)
    ensures !(confirmed && deleteOk) ==> r == w
    ensures confirmed && deleteOk ==> !HasId(r.store, id) && r.store == RemoveById(w.store, id)
    ensures confirmed && deleteOk && loadOk ==>
      r.screen.reviews == r.store && r.screen.stats == ComputeStats(r.store) && r.screen.activeTab == w.screen.activeTab
    ensures confirmed && deleteOk && !loadOk ==> r.screen == w.screen
  {
    if !(confirmed && deleteOk) then w
    else Reload(w.(store := RemoveById(w.store, id)), loadOk)
  }

  /** Switching tabs touches nothing but the tab. */
  function SelectTab(sc: Screen, tab: string): (r: Screen)
    ensures r.activeTab == tab && r.reviews == sc.reviews && r.stats == sc.stats
  {
    sc.(activeTab := tab)
  }
}

=== FILE: commercial_projects.dfy ===
/**
 The commercial-projects gallery: a category filter over a fixed catalogue,
 the flattened list of every shown project's media (each entry tagged with its
 project's title), and the lightbox that steps through that list cyclically
 with the arrow keys and closes on Escape.
 */
module CommercialProjects {
  import opened Common

  datatype Media = Media(kind: string, url: string)

  datatype Project = Project(id: int, title: string, category: string, media: seq<Media>)

  /** One entry of the flattened list: a media item with its project's title. */
  datatype Entry = Entry(kind: string, url: string, projectTitle: string)

  /** Lightbox state: whether it is open, the index into the flattened list, and the media
      type chosen when it was opened. */
  datatype Lightbox = Lightbox(open: bool, index: int, mediaType: string)

  /** The catalogue the page shows (descriptions and image addresses shortened). */
  const Catalogue: seq<Project> := [
    Project(1, "Luxury Hotel Lobby", "hotel", [Media("image", "hotel1"), Media("image", "hotel2")]),
    Project(2, "Modern Office Workspace", "office", [Media("image", "office1"), Media("image", "office2")]),
    Project(3, "Boutique Retail Store", "retail", [Media("image", "retail")]),
    Project(4, "Fine Dining Restaurant", "restaurant", [Media("image", "restaurant1"), Media("image", "restaurant2")]),
    Project(5, "Corporate Conference Room", "office", [Media("image", "office2")]),
    Project(6, "Boutique Hotel Suite", "hotel", [Media("image", "hotel2")])
  ]

  predicate InCategory(category: string, p: Project)
  {
    p.category == category
  }

  /** `filteredProjects`: every project for 'all', otherwise the projects of that category. */
  function FilteredProjects(projects: seq<Project>, filter: string): (r: seq<Project>)
    ensures IsSubseq(r, projects)
    ensures filter == "all" ==> r == projects
    ensures filter != "all" ==>
      (forall i :: 0 <= i < |projects| ==> (projects[i] in r <==> projects[i].category == filter))
      && (forall i :: 0 <= i < |r| ==> r[i].category == filter)
  {
    if filter == "all" then
      FilterAll(projects, p => true);
      FilterIsSubseq(projects, p => true);
      projects
    else
      FilterIsSubseq(projects, p => InCategory(filter, p));
      Filter(projects, p => InCategory(filter, p))
  }

  /** `media.map(m => ({...m, projectTitle: title}))`. */
  function Tag(p: Project): (r: seq<Entry>)
    ensures |r| == |p.media|
    ensures forall j :: 0 <= j < |r| ==> r[j] == Entry(p.media[j].kind, p.media[j].url, p.title)
  {
    seq(|p.media|, j requires 0 <= j < |p.media| => Entry(p.media[j].kind, p.media[j].url, p.title))
  }

  /** Total number of media items of the projects. */
  function MediaCount(projects: seq<Project>): nat
    decreases |projects|
  {
    if projects == [] then 0 else |projects[0].media| + MediaCount(projects[1..])
  }

  /** `allMedia`: the projects' tagged media, concatenated in project order. */
  function AllMedia(projects: seq<Project>): (r: seq<Entry>)
    ensures |r| == MediaCount(projects)
    decreases |projects|
  {
    if projects == [] then [] else Tag(projects[0]) + AllMedia(projects[1..])
  }

  /** Flattening distributes over concatenation. */
  lemma {:induction false} AllMediaAppend(a: seq<Project>, b: seq<Project>)
    ensures AllMedia(a + b) == AllMedia(a) + AllMedia(b)
    decreases |a|
  {
    if a == [] {
      assert a + b == b;
    } else {
      assert (a + b)[1..] == a[1..] + b;
      AllMediaAppend(a[1..], b);
    }
  }

  /** Position of project `k`'s first media item in the flattened list. */
  function Offset(projects: seq<Project>, k: nat): nat
    requires k <= |projects|
  {
    MediaCount(projects[..k])
  }

  /** Media item `j` of project `k` sits at `Offset(k) + j`, tagged with that project's title. */
  lemma {:induction false} AllMediaAt(projects: seq<Project>, k: nat, j: nat)
    requires k < |projects| && j < |projects[k].media|
    ensures Offset(projects, k) + j < |AllMedia(projects)|
    ensures AllMedia(projects)[Offset(projects, k) + j]
      == Entry(projects[k].media[j].kind, projects[k].media[j].url, projects[k].title)
  {
    var pre := projects[..k];
    var rest := projects[k..];
    assert projects == pre + rest;
    AllMediaAppend(pre, rest);
    assert rest[0] == projects[k];
  }

  /** The remainder of JavaScript's `%`, which takes the sign of the dividend. */
  function JsRem(a: int, n: int): int
    requires n > 0
  {
    if a >= 0 then a % n else -((-a) % n)
  }

  /** `nextMedia`: one step forward, wrapping to the start. */
  function Next(i: int, n: int): (r: int)
    requires 0 <= i < n
    ensures 0 <= r < n
    ensures i < n - 1 ==> r == i + 1
    ensures i == n - 1 ==> r == 0
  {
    JsRem(i + 1, n)
  }

  /** `prevMedia`: one step back, wrapping to the end. */
  function Prev(i: int, n: int): (r: int)
    requires 0 <= i < n
    ensures 0 <= r < n
    ensures i > 0 ==> r == i - 1
    ensures i == 0 ==> r == n - 1
  {
    JsRem(i - 1 + n, n)
  }

  /** Back then forward, or forward then back, returns to the same item. */
  lemma NextPrevInverse(i: int, n: int)
    requires 0 <= i < n
    ensures Next(Prev(i, n), n) == i
    ensures Prev(Next(i, n), n) == i
  {
  }

  /** An arrow leaves the lightbox on the same item exactly when there is only one item. */
  lemma ArrowsStayOnlyWhenSingle(i: int, n: int)
    requires 0 <= i < n
    ensures Next(i, n) == i <==> n == 1
    ensures Prev(i, n) == i <==> n == 1
  {
  }

  /** `m` presses of the forward arrow. */
  function NextTimes(i: int, n: int, m: nat): (r: int)
    requires 0 <= i < n
    ensures 0 <= r < n
  {
    if m == 0 then i else Next(NextTimes(i, n, m - 1), n)
  }

  /** `x` reduced into `0..n-1` by repeated subtraction, that is `x % n`. */
  function Wrap(x: nat, n: int): (r: nat)
    requires n > 0
    ensures r < n
    decreases x
  {
    if x < n then x else Wrap(x - n, n)
  }

  /** A forward step from a wrapped position is the wrapped successor. */
  lemma {:induction false} NextWrap(a: nat, n: int)
    requires n > 0
    ensures Next(Wrap(a, n), n) == Wrap(a + 1, n)
    decreases a
  {
    if a >= n {
      NextWrap(a - n, n);
    }
  }

  /** `m` forward steps land `m` places on, wrapping round. */
  lemma {:induction false} NextTimesWrap(i: int, n: int, m: nat)
    requires 0 <= i < n
    ensures NextTimes(i, n, m) == Wrap(i + m, n)
  {
    if m > 0 {
      NextTimesWrap(i, n, m - 1);
      NextWrap(i + m - 1, n);
    }
  }

  /** `n` presses of the forward arrow go all the way round. */
  lemma FullCircle(i: int, n: int)
    requires 0 <= i < n
    ensures NextTimes(i, n, n) == i
  {
    NextTimesWrap(i, n, n);
  }

  /** The lightbox points into the flattened list whenever it is open. */
  predicate LightboxOk(lb: Lightbox, n: int)
  {
    lb.open ==> 0 <= lb.index < n
  }

  /** `handleKeyDown` while the listener is installed, that is while the lightbox is open;
      a closed lightbox has no listener. */
  function HandleKey(lb: Lightbox, key: string, n: int): (r: Lightbox)
    requires LightboxOk(lb, n)
    ensures LightboxOk(r, n)
    ensures !lb.open ==> r == lb
    ensures lb.open && key == "Escape" ==> !r.open && r.index == lb.index
    ensures lb.open && key == "ArrowRight" ==> r.open && r.index == Next(lb.index, n)
    ensures lb.open && key == "ArrowLeft" ==> r.open && r.index == Prev(lb.index, n)
    ensures key != "Escape" && key != "ArrowRight" && key != "ArrowLeft" ==> r == lb
    ensures r.mediaType == lb.mediaType
  {
    if !lb.open then lb
    else if key == "Escape" then lb.(open := false)
    else if key == "ArrowRight" then lb.(index := Next(lb.index, n))
    else if key == "ArrowLeft" then lb.(index := Prev(lb.index, n))
    else lb
  }

  /** The lightbox after a run of key presses, each handled by `handleKeyDown`. */
  function PressKeys(lb: Lightbox, keys: seq<string>, n: int): (r: Lightbox)
    requires LightboxOk(lb, n)
    ensures LightboxOk(r, n)
    ensures r.mediaType == lb.mediaType
    ensures !lb.open ==> r == lb
    decreases |keys|
  {
    if keys == [] then lb else PressKeys(HandleKey(lb, keys[0], n), keys[1..], n)
  }

  /** Whatever keys are pressed after a valid open, the counter `index + 1 / n` reads
      between 1 and n for as long as the lightbox stays open. */
  lemma CounterInRange(lb: Lightbox, keys: seq<string>, n: int)
    requires LightboxOk(lb, n)
    ensures var r := PressKeys(lb, keys, n);
      r.open ==> 1 <= r.index + 1 <= n
  {
  }

  /** `openLightbox(index, type)`. */
  function OpenLightbox(lb: Lightbox, index: int, kind: string): (r: Lightbox)
    ensures r.open && r.index == index && r.mediaType == kind
  {
    Lightbox(true, index, kind)
  }

  /** Clicking the image of card `k` as the page does it: `openLightbox(0, type)`, whatever
      the card. */
  function OpenFromCardAsWritten(lb: Lightbox, shown: seq<Project>, k: nat): (r: Lightbox)
    requires k < |shown| && |shown[k].media| > 0
    ensures LightboxOk(r, |AllMedia(shown)|)
    ensures r.open && r.index == 0
  {
    AllMediaAt(shown, k, 0);
    OpenLightbox(lb, 0, shown[k].media[0].kind)
  }

  /** Clicking card `k`'s image, opening at that card's first media item. */
  function OpenFromCard(lb: Lightbox, shown: seq<Project>, k: nat): (r: Lightbox)
    requires k < |shown| && |shown[k].media| > 0
    ensures LightboxOk(r, |AllMedia(shown)|)
    ensures r.open && r.mediaType == shown[k].media[0].kind
    ensures AllMedia(shown)[r.index] == Entry(shown[k].media[0].kind, shown[k].media[0].url, shown[k].title)
  {
    AllMediaAt(shown, k, 0);
    OpenLightbox(lb, Offset(shown, k), shown[k].media[0].kind)
  }

  /** As written, opening the second card with every category shown displays the first
      project's image, titled "Luxury Hotel Lobby", not the clicked "Modern Office Workspace". */
  lemma OpenSecondCardShowsFirstProject(lb: Lightbox)
    ensures var shown := FilteredProjects(Catalogue, "all");
      var r := OpenFromCardAsWritten(lb, shown, 1);
      shown[1].title == "Modern Office Workspace"
      && AllMedia(shown)[r.index].projectTitle == "Luxury Hotel Lobby"
  {
    AllMediaAt(Catalogue, 0, 0);
  }
}

=== FILE: common.dfy ===
/**
 Shared vocabulary for the model: an optional value (the JavaScript `null` /
 `undefined` / missing field), the array `filter` used by every list screen, and
 the order-preserving subsequence relation that such a filter establishes.
 */
module Common {

  /** A value that may be absent. */
  datatype Option<+T> = None | Some(value: T)

  /** `Array.prototype.filter`: keeps, in order, the elements satisfying `p`. */
  function Filter<T>(s: seq<T>, p: T -> bool): (r: seq<T>)
    ensures |r| <= |s|
    ensures forall i :: 0 <= i < |r| ==> r[i] in s && p(r[i])
    ensures forall i :: 0 <= i < |s| && p(s[i]) ==> s[i] in r
    decreases |s|
  {
    if s == [] then []
    else if p(s[0]) then [s[0]] + Filter(s[1..], p)
    else Filter(s[1..], p)
  }

  /** The complement of a predicate, so that `Filter(s, Not(p))` is one term. */
  function Not<T>(p: T -> bool): T -> bool
  {
    x => !p(x)
  }

  /** Number of elements satisfying `p`: `s.filter(p).length`. */
  function Count<T>(s: seq<T>, p: T -> bool): nat
  {
    |Filter(s, p)|
  }

  /** `a` is obtained from `b` by deleting elements, keeping the order of the rest. */
  predicate IsSubseq<T(==)>(a: seq<T>, b: seq<T>)
    decreases |b|
  {
    if a == [] then true
    else if b == [] then false
    else (a[0] == b[0] && IsSubseq(a[1..], b[1..])) || IsSubseq(a, b[1..])
  }

  /** What a filter keeps is an order-preserving subsequence of its input. */
  lemma {:induction false} FilterIsSubseq<T>(s: seq<T>, p: T -> bool)
    ensures IsSubseq(Filter(s, p), s)
    decreases |s|
  {
    if s != [] {
      FilterIsSubseq(s[1..], p);
      if p(s[0]) {
        assert ([s[0]] + Filter(s[1..], p))[1..] == Filter(s[1..], p);
      }
    }
  }

  /** A list screen's `items.filter(shown)`, read as what it promises: an order-preserving
      subsequence holding exactly the elements that pass. */
  function Select<T(==)>(s: seq<T>, p: T -> bool): (r: seq<T>)
    ensures r == Filter(s, p)
    ensures IsSubseq(r, s)
    ensures forall i :: 0 <= i < |s| ==> (s[i] in r <==> p(s[i]))
    ensures forall i :: 0 <= i < |r| ==> p(r[i])
  {
    FilterIsSubseq(s, p);
    Filter(s, p)
  }

  /** A predicate that holds everywhere filters nothing out. */
  lemma {:induction false} FilterAll<T>(s: seq<T>, p: T -> bool)
    requires forall i :: 0 <= i < |s| ==> p(s[i])
    ensures Filter(s, p) == s
    decreases |s|
  {
    if s != [] {
      FilterAll(s[1..], p);
      assert [s[0]] + s[1..] == s;
    }
  }

  /** Filtering by `p` and by its complement splits the input: the two counts add up. */
  lemma {:induction false} FilterPartition<T>(s: seq<T>, p: T -> bool)
    ensures |Filter(s, p)| + |Filter(s, Not(p))| == |s|
    ensures multiset(Filter(s, p)) + multiset(Filter(s, Not(p))) == multiset(s)
    decreases |s|
  {
    if s != [] {
      FilterPartition(s[1..], p);
      assert [s[0]] + s[1..] == s;
    }
  }

  /** Two predicates that agree on every element filter alike. */
  lemma {:induction false} FilterExt<T>(s: seq<T>, p: T -> bool, q: T -> bool)
    requires forall i :: 0 <= i < |s| ==> p(s[i]) == q(s[i])
    ensures Filter(s, p) == Filter(s, q)
    decreases |s|
  {
    if s != [] {
      FilterExt(s[1..], p, q);
    }
  }

  /** A weaker predicate keeps at least as many elements. */
  lemma {:induction false} FilterMono<T>(s: seq<T>, p: T -> bool, q: T -> bool)
    requires forall i :: 0 <= i < |s| ==> p(s[i]) ==> q(s[i])
    ensures |Filter(s, p)| <= |Filter(s, q)|
    decreases |s|
  {
    if s != [] {
      FilterMono(s[1..], p, q);
    }
  }

  /** Filtering a concatenation filters each part. */
  lemma {:induction false} FilterAppend<T>(a: seq<T>, b: seq<T>, p: T -> bool)
    ensures Filter(a + b, p) == Filter(a, p) + Filter(b, p)
    decreases |a|
  {
    if a == [] {
      assert a + b == b;
    } else {
      assert (a + b)[0] == a[0] && (a + b)[1..] == a[1..] + b;
      FilterAppend(a[1..], b, p);
    }
  }

  /** Nothing is counted exactly when nothing satisfies the predicate. */
  lemma CountZero<T>(s: seq<T>, p: T -> bool)
    ensures Count(s, p) == 0 <==> forall i :: 0 <= i < |s| ==> !p(s[i])
  {
    var r := Filter(s, p);
    if r != [] {
      assert r[0] in s && p(r[0]);
      var j :| 0 <= j < |s| && s[j] == r[0];
      assert p(s[j]);
    }
  }
}

=== FILE: contact.dfy ===
/**
 The public contact form: field edits, the ordered validation (name, email
 present, email shape, optional phone, message), and what sending does on a
 validation error, on a successful store write and on a failed one. The email
 and phone patterns are the form's regular expressions, read over the
 ECMAScript `\s` class.
 */
module Contact {
  import opened Common
  import opened Text
  import AdminMessages
  import DocStore

  /** The four controlled inputs. */
  datatype Form = Form(name: string, email: string, phone: string, message: string)

  datatype Field = NameField | EmailField | PhoneField | MessageField

  /** The validation failures, in the order they are checked. */
  datatype ContactError = NameRequired | EmailRequired | EmailInvalid | PhoneInvalid | MessageRequired

  datatype ModalType = Success | Failure

  datatype State = State(
    form: Form,
    error: string,
    sent: bool,
    showModal: bool,
    modalMsg: string,
    modalType: ModalType)

  function EmptyForm(): Form { Form("", "", "", "") }

  function Initial(): State
  {
    State(EmptyForm(), "", false, false, "", Success)
  }

  /** The text shown for each failure. */
  function ErrorText(e: ContactError): (t: string)
    ensures t != ""
  {
    match e
    case NameRequired => "Name is required."
    case EmailRequired => "Email is required."
    case EmailInvalid => "Enter a valid email."
    case PhoneInvalid => "Enter a valid phone number."
    case MessageRequired => "Message is required."
  }

  /** A character of the class `[^@\s]`. */
  predicate Plain(c: char)
  {
    c != '@' && !IsSpace(c)
  }

  predicate AllPlain(s: string)
  {
    forall i :: 0 <= i < |s| ==> Plain(s[i])
  }

  /** One way the pattern `^[^@\s]+@[^@\s]+\.[^@\s]+$` can match `s`: the `@` at `i`, the
      chosen `.` at `j`, and non-empty runs of `[^@\s]` before, between and after. */
  predicate EmailSplit(s: string, i: int, j: int)
  {
    1 <= i && i + 1 < j && j + 1 < |s| && s[i] == '@' && s[j] == '.'
    && AllPlain(s[..i]) && AllPlain(s[i + 1..j]) && AllPlain(s[j + 1..])
  }

  /** The pattern matches: some split exists. */
  ghost predicate EmailMatches(s: string)
  {
    exists i, j :: EmailSplit(s, i, j)
  }

  /** The domain after the `@`: no `@`, no white space, and a `.` that is neither its first
      nor its last character. */
  predicate DomainOk(d: string)
  {
    |d| >= 3 && AllPlain(d) && '.' in d[1..|d| - 1]
  }

  /** The email test, read off at the first `@`. */
  predicate EmailShape(s: string)
  {
    match IndexOf(s, '@')
    case None => false
    case Some(k) => k >= 1 && AllPlain(s[..k]) && DomainOk(s[k + 1..])
  }

  /** The test at the first `@` agrees with the pattern. */
  lemma EmailShapeMatches(s: string)
    ensures EmailShape(s) <==> EmailMatches(s)
  {
    if EmailShape(s) {
      ShapeGivesSplit(s);
    }
    if EmailMatches(s) {
      var i, j :| EmailSplit(s, i, j);
      SplitGivesShape(s, i, j);
    }
  }

  /** A string passing the test at its first `@` has a split the pattern accepts. */
  lemma ShapeGivesSplit(s: string)
    requires EmailShape(s)
    ensures EmailMatches(s)
  {
    var k := IndexOf(s, '@').value;
    var d := s[k + 1..];
    var m :| 0 <= m < |d| - 2 && d[1..|d| - 1][m] == '.';
    var j := k + 2 + m;
    assert s[j] == '.';
    assert s[k + 1..j] == d[..m + 1];
    assert s[j + 1..] == d[m + 2..];
    assert EmailSplit(s, k, j);
  }

  /** Any split the pattern accepts has its `@` at the first `@` and passes the test. */
  lemma SplitGivesShape(s: string, i: int, j: int)
    requires EmailSplit(s, i, j)
    ensures EmailShape(s)
  {
    SplitAtFirstAt(s, i, j);
    SplitDomainOk(s, i, j);
  }

  lemma SplitAtFirstAt(s: string, i: int, j: int)
    requires EmailSplit(s, i, j)
    ensures IndexOf(s, '@') == Some(i)
  {
    assert '@' !in s[..i] by {
      forall t | 0 <= t < i ensures s[..i][t] != '@' {
        assert Plain(s[..i][t]);
      }
    }
    assert s[i] == '@';
  }

  lemma SplitDomainOk(s: string, i: int, j: int)
    requires EmailSplit(s, i, j)
    ensures DomainOk(s[i + 1..])
  {
    var d := s[i + 1..];
    forall t | 0 <= t < |d| ensures Plain(d[t]) {
      if t < j - i - 1 {
        assert d[t] == s[i + 1..j][t];
      } else if t > j - i - 1 {
        assert d[t] == s[j + 1..][t - (j - i)];
      }
    }
    assert d[1..|d| - 1][j - i - 2] == '.';
  }

  /** `\+?\d{7,15}`: an optional plus sign, then seven to fifteen ASCII digits. */
  predicate Digits(s: string)
  {
    7 <= |s| <= 15 && forall i :: 0 <= i < |s| ==> IsDigit(s[i])
  }

  /** `^\+?\d{7,15}$` on the whole string: the digits alone, or a plus sign and then the digits. */
  predicate PhoneShape(s: string): (b: bool)
    ensures b <==> Digits(s) || (|s| > 0 && s[0] == '+' && Digits(s[1..]))
  {
    if |s| > 0 && s[0] == '+' then Digits(s[1..]) else Digits(s)
  }

  /** The phone check: an empty phone passes; otherwise the pattern is tested after every
      white-space character is removed. */
  predicate PhoneOk(phone: string)
  {
    phone == "" || PhoneShape(RemoveSpaces(phone))
  }

  /** White space anywhere in a phone that has other characters makes no difference to the
      check: "+1 555 123 4567" is judged as "+15551234567". */
  lemma PhoneIgnoresSpaces(a: string, c: char, b: string)
    requires IsSpace(c) && a + b != ""
    ensures PhoneOk(a + [c] + b) == PhoneOk(a + b)
  {
    RemoveSpacesSkips(a, c, b);
    assert |a + [c] + b| > 0;
  }

  /** A phone of only white space is not empty, and nothing is left of it to match. */
  lemma BlankPhoneRejected(phone: string)
    requires phone != "" && AllSpace(phone)
    ensures !PhoneOk(phone)
  {
  }

  /** `validate`: the first failing check, or none. */
  function Validate(f: Form): (r: Option<ContactError>)
    ensures r.None? <==>
      !AllSpace(f.name) && !AllSpace(f.email) && EmailMatches(f.email) && PhoneOk(f.phone) && !AllSpace(f.message)
    ensures r == Some(NameRequired) <==> AllSpace(f.name)
    ensures r == Some(EmailRequired) <==> !AllSpace(f.name) && AllSpace(f.email)
    ensures r == Some(EmailInvalid) <==> !AllSpace(f.name) && !AllSpace(f.email) && !EmailMatches(f.email)
    ensures r == Some(PhoneInvalid) <==>
      !AllSpace(f.name) && !AllSpace(f.email) && EmailMatches(f.email) && !PhoneOk(f.phone)
    ensures r == Some(MessageRequired) <==>
      !AllSpace(f.name) && !AllSpace(f.email) && EmailMatches(f.email) && PhoneOk(f.phone) && AllSpace(f.message)
  {
    EmailShapeMatches(f.email);
    if Trim(f.name) == "" then Some(NameRequired)
    else if Trim(f.email) == "" then Some(EmailRequired)
    else if !EmailShape(f.email) then Some(EmailInvalid)
    else if f.phone != "" && !PhoneShape(RemoveSpaces(f.phone)) then Some(PhoneInvalid)
    else if Trim(f.message) == "" then Some(MessageRequired)
    else None
  }

  /** The string `validate` returns: empty exactly when every check passes. */
  function ValidateText(f: Form): (t: string)
    ensures t == "" <==> Validate(f).None?
  {
    match Validate(f)
    case None => ""
    case Some(e) => ErrorText(e)
  }

  /** The email shape is tested on the untrimmed value: a leading space is invalid although
      the presence check passes. */
  lemma PaddedEmailInvalid()
    ensures Validate(Form("Ann", " a@b.co", "", "Hi")) == Some(EmailInvalid)
  {
    assert !AllSpace("Ann") by { assert !IsSpace("Ann"[0]); }
    assert !AllSpace(" a@b.co") by { assert !IsSpace(" a@b.co"[1]); }
    assert IndexOf(" a@b.co", '@') == Some(2);
    assert !Plain(" a@b.co"[..2][0]);
  }

  /** `handleChange`: the edited field takes the new value, the others stay, and the inline
      error is cleared. */
  function HandleChange(st: State, field: Field, value: string): (r: State)
    ensures r.error == ""
    ensures field == NameField ==> r.form == st.form.(name := value)
    ensures field == EmailField ==> r.form == st.form.(email := value)
    ensures field == PhoneField ==> r.form == st.form.(phone := value)
    ensures field == MessageField ==> r.form == st.form.(message := value)
    ensures r.(form := st.form, error := st.error) == st
  {
    var f := match field
      case NameField => st.form.(name := value)
      case EmailField => st.form.(email := value)
      case PhoneField => st.form.(phone := value)
      case MessageField => st.form.(message := value);
    st.(form := f, error := "")
  }

  /** Typing into one field twice keeps only the last value, and edits to two different fields
      can land in either order. */
  lemma HandleChangeEdits(st: State, f: Field, g: Field, a: string, b: string)
    ensures HandleChange(HandleChange(st, f, a), f, b) == HandleChange(st, f, b)
    ensures f != g ==> HandleChange(HandleChange(st, f, a), g, b) == HandleChange(HandleChange(st, g, b), f, a)
  {
  }

  /** The stored record: the four fields plus `read: false`. */
  function Record(f: Form): AdminMessages.Message
  {
    AdminMessages.Message(Some(f.name), Some(f.email), Some(f.phone), Some(f.message), Some(false))
  }

  /** The state after sending, and the record written to the store, if any. */
  datatype SendOutcome = SendOutcome(state: State, written: Option<AdminMessages.Message>)

  /** `sendMessage`; `writeOk` is whether the store accepted the new document. */
  function SendMessage(st: State, writeOk: bool): (r: SendOutcome)
    ensures Validate(st.form).Some? ==>
      r.written.None? && r.state.showModal && r.state.modalType == Failure
      && r.state.modalMsg == ErrorText(Validate(st.form).value) && r.state.form == st.form
    ensures Validate(st.form).None? && writeOk ==>
      r.written == Some(Record(st.form)) && r.state.form == EmptyForm() && r.state.sent
      && r.state.showModal && r.state.modalType == Success
      && r.state.modalMsg == "Thank you! Your message has been sent."
    ensures Validate(st.form).None? && !writeOk ==>
      r.written.None? && r.state.form == st.form && r.state.sent == st.sent
      && r.state.showModal && r.state.modalType == Failure
      && r.state.modalMsg == "Something went wrong. Please try again."
    ensures r.written.Some? <==> Validate(st.form).None? && writeOk
  {
    match Validate(st.form)
    case Some(e) =>
      SendOutcome(st.(modalMsg := ErrorText(e), modalType := Failure, showModal := true), None)
    case None =>
      if writeOk then
        SendOutcome(st.(sent := true, modalMsg := "Thank you! Your message has been sent.",
                        modalType := Success, showModal := true, form := EmptyForm()),
                    Some(Record(st.form)))
      else
        SendOutcome(st.(modalMsg := "Something went wrong. Please try again.",
                        modalType := Failure, showModal := true), None)
  }

  /** A message sent through the form shows up on the admin screen as unread: it is listed
      under the 'unread' filter with an empty search, and counted on the 'unread' card. */
  lemma SentMessageListedUnread(st: State, id: string, createdAt: int)
    requires Validate(st.form).None?
    ensures var m := SendMessage(st, true).written.value;
      var d := DocStore.Doc(id, createdAt, m);
      AdminMessages.FilteredMessages([d], "unread", "") == [d]
      && AdminMessages.FlagIs(false, d)
  {
    var m := SendMessage(st, true).written.value;
    AdminMessages.UnreadListed(DocStore.Doc(id, createdAt, m));
  }
}

=== FILE: cursor_paging.dfy ===
/**
 The cursor-based paging that the quotes and messages admin screens each carry
 a copy of, written once and generic in the document fields. The screen keeps
 the loaded page, the current page number and size, the total count, and a list
 of cursor slots where slot `k-1` holds the last document of page `k`. A fetch
 resumes after the cursor of the previous page when it has one and otherwise
 (silently) queries the first page.
 */
module CursorPaging {
  import opened Common
  import opened DocStore
  import Pagination

  /** Which query a fetch issues. */
  datatype Query<T> = FirstPage | AfterCursor(cursor: Doc<T>)

  /** Per-screen paging state. `cursors` mirrors the `lastDocs` array; `None` is a hole. */
  datatype PageState<T> = PageState(
    currentPage: int,
    pageSize: int,
    totalItems: int,
    cursors: seq<Option<Doc<T>>>,
    items: seq<Doc<T>>,
    hasMore: bool)

  /** The state on mount: page 1, empty list and no cursors. */
  function Initial<T>(pageSize: int): PageState<T>
  {
    PageState(1, pageSize, 0, [], [], true)
  }

  /** The query for `page`: resume after slot `page-2` only when the page is past the first,
      the slot holds a cursor, and no reset was asked for. */
  function ChooseQuery<T>(page: int, cursors: seq<Option<Doc<T>>>, reset: bool): (q: Query<T>)
    ensures q.AfterCursor? <==> page > 1 && !reset && page - 2 < |cursors| && cursors[page - 2].Some?
    ensures q.AfterCursor? ==> q.cursor == cursors[page - 2].value
  {
    if page > 1 && page - 2 < |cursors| && cursors[page - 2].Some? && !reset
    then AfterCursor(cursors[page - 2].value)
    else FirstPage
  }

  /** What the store returns for a query with `limit(size)`. */
  function RunQuery<T>(store: seq<Doc<T>>, q: Query<T>, size: nat): (r: seq<Doc<T>>)
    ensures |r| <= size
    ensures q.FirstPage? ==> r == Take(store, size)
  {
    match q
    case FirstPage => Take(store, size)
    case AfterCursor(c) => Take(StartAfter(store, c), size)
  }

  /** JavaScript array assignment `a[i] = v`: writing past the end leaves holes. */
  function SetSlot<T>(a: seq<Option<T>>, i: nat, v: T): (r: seq<Option<T>>)
    ensures |r| == if i < |a| then |a| else i + 1
    ensures r[i] == Some(v)
    ensures forall j :: 0 <= j < |a| && j != i ==> r[j] == a[j]
    ensures forall j :: |a| <= j < i ==> r[j] == None
  {
    if i < |a| then a[i := Some(v)]
    else a + seq(i - |a|, _ => None) + [Some(v)]
  }

  /** After a fetch of `page`, its last document goes to slot `page-1`; an empty batch records nothing. */
  function RecordCursor<T>(cursors: seq<Option<Doc<T>>>, page: int, batch: seq<Doc<T>>): (r: seq<Option<Doc<T>>>)
    requires page >= 1
    ensures batch == [] ==> r == cursors
    ensures batch != [] ==> page - 1 < |r| && r[page - 1] == Some(batch[|batch| - 1])
    ensures |r| >= |cursors|
    ensures forall j :: 0 <= j < |cursors| && j != page - 1 ==> r[j] == cursors[j]
  {
    if batch == [] then cursors else SetSlot(cursors, page - 1, batch[|batch| - 1])
  }

  /** The store's reply to a page query lands in the state: `None` is a failed request,
      which leaves everything as it was (the error is only logged). */
  function ApplyReply<T>(st: PageState<T>, page: int, size: int, reply: Option<seq<Doc<T>>>): (r: PageState<T>)
    requires page >= 1
    ensures reply.None? ==> r == st
    ensures reply.Some? ==>
      && r.items == reply.value
      && r.hasMore == (|reply.value| == size)
      && r.cursors == RecordCursor(st.cursors, page, reply.value)
      && r.currentPage == st.currentPage && r.pageSize == st.pageSize && r.totalItems == st.totalItems
  {
    match reply
    case None => st
    case Some(batch) =>
      st.(items := batch,
          cursors := RecordCursor(st.cursors, page, batch),
          hasMore := |batch| == size)
  }

  /** `fetchQuotes` / `fetchMessages(page, size, reset)` against a store that answers. */
  function Fetch<T>(store: seq<Doc<T>>, st: PageState<T>, page: int, size: int, reset: bool): (r: PageState<T>)
    requires page >= 1 && size >= 1
    ensures |r.items| <= size
    ensures r.hasMore <==> |r.items| == size
    ensures ChooseQuery(page, st.cursors, reset).FirstPage? ==> r.items == Take(store, size)
    ensures r.items != [] ==> page - 1 < |r.cursors| && r.cursors[page - 1] == Some(r.items[|r.items| - 1])
    ensures r.items == [] ==> r.cursors == st.cursors
    ensures |r.cursors| >= |st.cursors|
    ensures forall j :: 0 <= j < |st.cursors| && j != page - 1 ==> r.cursors[j] == st.cursors[j]
    ensures r.currentPage == st.currentPage && r.pageSize == st.pageSize && r.totalItems == st.totalItems
  {
    ApplyReply(st, page, size, Some(RunQuery(store, ChooseQuery(page, st.cursors, reset), size)))
  }

  /** The replaced page does not depend on what was loaded before: fetches never accumulate. */
  lemma FetchReplaces<T>(store: seq<Doc<T>>, st1: PageState<T>, st2: PageState<T>, page: int, size: int, reset: bool)
    requires page >= 1 && size >= 1 && st1.cursors == st2.cursors
    ensures Fetch(store, st1, page, size, reset).items == Fetch(store, st2, page, size, reset).items
  {
  }

  /** A page past the first whose predecessor's cursor is missing silently shows the first page. */
  lemma MissingCursorFallsBack<T>(store: seq<Doc<T>>, st: PageState<T>, page: int, size: int)
    requires page > 1 && size >= 1
    requires page - 2 >= |st.cursors| || st.cursors[page - 2].None?
    ensures Fetch(store, st, page, size, false).items == Slice(store, 1, size)
  {
  }

  /** The effect that runs whenever the current page or the page size changes. */
  function Settle<T>(store: seq<Doc<T>>, st: PageState<T>): (r: PageState<T>)
    requires st.currentPage >= 1 && st.pageSize >= 1
    ensures r.currentPage == st.currentPage && r.pageSize == st.pageSize
  {
    Fetch(store, st, st.currentPage, st.pageSize, false)
  }

  /** The effect keyed on the current page and the page size: it refetches only when one of
      the two changed from `before` to `after`. */
  function Effect<T>(store: seq<Doc<T>>, before: PageState<T>, after: PageState<T>): (r: PageState<T>)
    requires after.currentPage >= 1 && after.pageSize >= 1
    ensures before.currentPage == after.currentPage && before.pageSize == after.pageSize ==> r == after
    ensures r.currentPage == after.currentPage && r.pageSize == after.pageSize
    ensures before.currentPage != after.currentPage || before.pageSize != after.pageSize ==>
      r.items == RunQuery(store, ChooseQuery(after.currentPage, after.cursors, false), after.pageSize)
  {
    if before.currentPage != after.currentPage || before.pageSize != after.pageSize
    then Settle(store, after)
    else after
  }

  /** Changing the page size or the filter: back to page 1 with every cursor discarded. */
  function ResetPaging<T>(st: PageState<T>): (r: PageState<T>)
    ensures r.currentPage == 1 && r.cursors == []
    ensures r.items == st.items && r.pageSize == st.pageSize && r.totalItems == st.totalItems
  {
    st.(currentPage := 1, cursors := [])
  }

  /** `handlePageSizeChange`. */
  function ChangePageSize<T>(st: PageState<T>, size: int): (r: PageState<T>)
    ensures r.pageSize == size && r.currentPage == 1 && r.cursors == []
    ensures r.totalItems == st.totalItems && r.items == st.items
  {
    ResetPaging(st).(pageSize := size)
  }

  /** Applies what the pagination bar forwards: `onPageSizeChange` then `onPageChange` (= set page). */
  function ApplyEvent<T>(st: PageState<T>, e: Pagination.Event): PageState<T>
  {
    match e
    case PageSizeChanged(size) => ChangePageSize(st, size)
    case PageChanged(page) => st.(currentPage := page)
  }

  function ApplyEvents<T>(st: PageState<T>, es: seq<Pagination.Event>): PageState<T>
    decreases |es|
  {
    if es == [] then st else ApplyEvents(ApplyEvent(st, es[0]), es[1..])
  }

  /** Picking a different size in the bar lands the screen on page 1 of the new size with
      no cursors, whatever page and cursors it had; the effect then loads the first page. */
  lemma PageSizeChangeRestarts<T>(store: seq<Doc<T>>, st: PageState<T>, newSize: int)
    requires newSize >= 1 && newSize != st.pageSize
    ensures var st' := ApplyEvents(st, Pagination.HandlePageSizeChange(newSize, st.pageSize));
      st'.currentPage == 1 && st'.pageSize == newSize && st'.cursors == []
      && Settle(store, st').items == Slice(store, 1, newSize)
  {
    var es := Pagination.HandlePageSizeChange(newSize, st.pageSize);
    var st1 := ApplyEvent(st, es[0]);
    assert st1.pageSize == newSize && st1.cursors == [];
    assert es[1..] == [Pagination.PageChanged(1)];
    var st2 := ApplyEvent(st1, Pagination.PageChanged(1));
    assert es[1..][1..] == [];
    assert ApplyEvents(st1, es[1..]) == ApplyEvents(st2, []);
    assert ApplyEvents(st, es) == st2;
  }

  /** Clicking a page button: the bar's guard, then the effect's fetch. */
  function GoTo<T>(store: seq<Doc<T>>, st: PageState<T>, page: int): (r: PageState<T>)
    requires st.pageSize >= 1 && st.currentPage >= 1
    ensures var ok := 1 <= page <= Pagination.TotalPages(st.totalItems, st.pageSize) && page != st.currentPage;
      && (!ok ==> r == st)
      && (ok ==> r.currentPage == page && r.pageSize == st.pageSize
                 && r.items == RunQuery(store, ChooseQuery(page, st.cursors, false), st.pageSize))
  {
    match Pagination.HandlePageChange(page, st.currentPage, Pagination.TotalPages(st.totalItems, st.pageSize))
    case None => st
    case Some(e) => Settle(store, ApplyEvent(st, e))
  }

  /** The state after mounting and then stepping forward page by page up to page `k`. */
  function Walk<T>(store: seq<Doc<T>>, size: int, k: nat): (r: PageState<T>)
    requires size >= 1 && k >= 1
    ensures r.pageSize == size && r.currentPage == k
    decreases k
  {
    if k == 1 then Fetch(store, Initial(size), 1, size, true)
    else Settle(store, Walk(store, size, k - 1).(currentPage := k))
  }

  /** Resuming after the document just before page `k`'s offset yields page `k`. */
  lemma ResumeGivesNextSlice<T>(store: seq<Doc<T>>, size: nat, k: nat)
    requires NewestFirst(store) && k >= 2
    requires 1 <= PageStart(k, size) <= |store|
    ensures Take(StartAfter(store, store[PageStart(k, size) - 1]), size) == Slice(store, k, size)
  {
    var a := PageStart(k, size);
    var page := store[a..Clip(a + size, |store|)];
    assert Slice(store, k, size) == page;
    ResumeAt(store, a, size);
  }

  /** What the walk promises about page `k`: it is the `k`-th slice, and, when not empty,
      its last document sits in slot `k-1`. */
  ghost predicate ShowsSlice<T>(store: seq<Doc<T>>, size: nat, k: nat, st: PageState<T>)
    requires size >= 1 && k >= 1
  {
    var a := PageStart(k, size);
    st.items == Slice(store, k, size)
    && (a < |store| ==> k - 1 < |st.cursors| && st.cursors[k - 1] == Some(store[Clip(a + size, |store|) - 1]))
  }

  lemma WalkFirstPage<T>(store: seq<Doc<T>>, size: int)
    requires size >= 1
    ensures ShowsSlice(store, size, 1, Walk(store, size, 1))
  {
  }

  /** The cursor a state showing page `k-1` holds in slot `k-2` is the document just before
      page `k`'s offset. */
  lemma PrevCursor<T>(store: seq<Doc<T>>, size: int, k: nat, prev: PageState<T>)
    requires size >= 1 && k >= 2 && PageStart(k, size) <= |store|
    requires ShowsSlice(store, size, k - 1, prev)
    ensures PageStart(k, size) >= 1
    ensures k - 2 < |prev.cursors| && prev.cursors[k - 2] == Some(store[PageStart(k, size) - 1])
  {
    assert PageStart(k, size) == PageStart(k - 1, size) + size;
  }

  /** A state holding page `k` whose last document went to slot `k-1` shows page `k`. */
  lemma SliceShown<T>(store: seq<Doc<T>>, size: nat, k: nat, st: PageState<T>)
    requires size >= 1 && k >= 1
    requires st.items == Slice(store, k, size)
    requires st.items != [] ==> k - 1 < |st.cursors| && st.cursors[k - 1] == Some(st.items[|st.items| - 1])
    ensures ShowsSlice(store, size, k, st)
  {
    var a := PageStart(k, size);
    if a < |store| {
      var hi := Clip(a + size, |store|);
      assert st.items == store[a..hi];
      assert st.items[|st.items| - 1] == store[hi - 1];
    }
  }

  /** Moving to page `k` from a state whose slot `k-2` holds `c` resumes after `c`, and the
      last document fetched goes to slot `k-1`. */
  lemma ResumesAfterCursor<T>(store: seq<Doc<T>>, k: nat, prev: PageState<T>, c: Doc<T>)
    requires k >= 2 && prev.pageSize >= 1
    requires k - 2 < |prev.cursors| && prev.cursors[k - 2] == Some(c)
    ensures var st := Settle(store, prev.(currentPage := k));
      st.items == Take(StartAfter(store, c), prev.pageSize)
      && (st.items != [] ==> k - 1 < |st.cursors| && st.cursors[k - 1] == Some(st.items[|st.items| - 1]))
  {
    assert ChooseQuery(k, prev.cursors, false) == AfterCursor(c);
  }

  /** Stepping from a state that shows page `k-1` to page `k` shows page `k`. */
  lemma NextPageShown<T>(store: seq<Doc<T>>, size: int, k: nat, prev: PageState<T>)
    requires NewestFirst(store) && size >= 1 && k >= 2 && prev.pageSize == size
    requires PageStart(k, size) <= |store|
    requires ShowsSlice(store, size, k - 1, prev)
    ensures ShowsSlice(store, size, k, Settle(store, prev.(currentPage := k)))
  {
    FetchedNextPageShown(store, size, k, prev, Settle(store, prev.(currentPage := k)));
  }

  /** A state holding what the query for page `k` returns when issued from a state showing
      page `k-1`, with its last document in slot `k-1`, shows page `k`. */
  lemma FetchedNextPageShown<T>(store: seq<Doc<T>>, size: int, k: nat, prev: PageState<T>, st: PageState<T>)
    requires NewestFirst(store) && size >= 1 && k >= 2
    requires PageStart(k, size) <= |store|
    requires ShowsSlice(store, size, k - 1, prev)
    requires st.items == RunQuery(store, ChooseQuery(k, prev.cursors, false), size)
    requires st.items != [] ==> k - 1 < |st.cursors| && st.cursors[k - 1] == Some(st.items[|st.items| - 1])
    ensures ShowsSlice(store, size, k, st)
  {
    PrevCursor(store, size, k, prev);
    var c := store[PageStart(k, size) - 1];
    assert ChooseQuery(k, prev.cursors, false) == AfterCursor(c);
    ResumedPageShown(store, size, k, st);
  }

  /** A state holding what resuming after the document before page `k`'s offset returns,
      with its last document in slot `k-1`, shows page `k`. */
  lemma ResumedPageShown<T>(store: seq<Doc<T>>, size: nat, k: nat, st: PageState<T>)
    requires NewestFirst(store) && size >= 1 && k >= 2
    requires 1 <= PageStart(k, size) <= |store|
    requires st.items == Take(StartAfter(store, store[PageStart(k, size) - 1]), size)
    requires st.items != [] ==> k - 1 < |st.cursors| && st.cursors[k - 1] == Some(st.items[|st.items| - 1])
    ensures ShowsSlice(store, size, k, st)
  {
    ResumeGivesNextSlice(store, size, k);
    SliceShown(store, size, k, st);
  }

  lemma {:induction false} WalkShowsSlicesAt<T>(store: seq<Doc<T>>, size: int, k: nat)
    requires NewestFirst(store) && size >= 1 && k >= 1
    requires PageStart(k, size) <= |store|
    ensures ShowsSlice(store, size, k, Walk(store, size, k))
    decreases k
  {
    if k == 1 {
      WalkFirstPage(store, size);
    } else {
      PageStartMonotone(k - 1, k, size);
      WalkShowsSlicesAt(store, size, k - 1);
      NextPageShown(store, size, k, Walk(store, size, k - 1));
    }
  }

  /** Stepping forward from page 1 shows page `k` exactly as the `k`-th slice of the store,
      as long as the pages before it were full, with page `k`'s last document in slot `k-1`. */
  lemma WalkShowsSlices<T>(store: seq<Doc<T>>, size: int, k: nat)
    requires NewestFirst(store) && size >= 1 && k >= 1
    requires (k - 1) * size <= |store|
    ensures ShowsSlice(store, size, k, Walk(store, size, k))
  {
    PageStartIsProduct(k, size);
    WalkShowsSlicesAt(store, size, k);
  }

  /** Stepping from page `k` to page `k+1` neither repeats nor skips a document: two states
      showing pages `k` and `k+1` (as the walk's states do, `WalkShowsSlicesAt`) hold
      disjoint pages that together form one contiguous run of the store. */
  lemma ConsecutivePages<T>(store: seq<Doc<T>>, size: nat, k: nat, sa: PageState<T>, sb: PageState<T>)
    requires NewestFirst(store) && size >= 1 && k >= 1
    requires ShowsSlice(store, size, k, sa) && ShowsSlice(store, size, k + 1, sb)
    ensures forall d :: d in sa.items ==> d !in sb.items
    ensures PageStart(k + 1, size) <= |store| ==>
      sa.items + sb.items == store[PageStart(k, size)..Clip(PageStart(k + 1, size) + size, |store|)]
  {
    PagesDisjoint(store, k, k + 1, size);
    if PageStart(k + 1, size) <= |store| {
      AdjacentSlicesJoin(store, size, k);
    }
  }

  /** Pages `k` and `k+1` of a store, put side by side, form one contiguous run of it. */
  lemma AdjacentSlicesJoin<T>(store: seq<Doc<T>>, size: nat, k: nat)
    requires k >= 1 && PageStart(k + 1, size) <= |store|
    ensures Slice(store, k, size) + Slice(store, k + 1, size)
         == store[PageStart(k, size)..Clip(PageStart(k + 1, size) + size, |store|)]
  {
    var a := PageStart(k, size);
    assert PageStart(k + 1, size) == a + size;
    SliceJoin(store, a, a + size, Clip(a + size + size, |store|));
  }

  /** `hasMore` is only a guess: a store holding exactly two full pages still reports more
      after the second page. */
  lemma HasMoreOnExactMultiple<T>(store: seq<Doc<T>>, size: int)
    requires NewestFirst(store) && size >= 1 && |store| == 2 * size
    ensures Walk(store, size, 2).hasMore
    ensures Walk(store, size, 2).items == store[size..]
  {
    WalkShowsSlicesAt(store, size, 2);
  }
}

=== FILE: doc_store.dfy ===
/**
 The document collections as the components see them. A collection is a
 sequence of documents ordered by `createdAt`, newest first (the only order any
 component asks for); `limit(n)` keeps the first `n`, and `startAfter(cursor)`
 keeps the documents that sort strictly after the cursor document. Documents
 are addressed by id for updates and deletes.
 */
module DocStore {
  import opened Common

  /** One stored document: store-assigned id and creation time, plus the collection's fields. */
  datatype Doc<T> = Doc(id: string, createdAt: int, data: T)

  /** Newest first, with no two documents sharing a creation time. */
  predicate NewestFirst<T>(s: seq<Doc<T>>)
  {
    forall i, j :: 0 <= i < j < |s| ==> s[i].createdAt > s[j].createdAt
  }

  /** No id occurs twice. */
  predicate UniqueIds<T>(s: seq<Doc<T>>)
  {
    forall i, j :: 0 <= i < j < |s| ==> s[i].id != s[j].id
  }

  predicate HasId<T>(s: seq<Doc<T>>, id: string)
  {
    exists i :: 0 <= i < |s| && s[i].id == id
  }

  /** `limit(n)`: the first `n` documents, or all of them when there are fewer. */
  function Take<T>(s: seq<Doc<T>>, n: nat): (r: seq<Doc<T>>)
    ensures |r| == if n <= |s| then n else |s|
    ensures r == s[..|r|]
  {
    if n <= |s| then s[..n] else s
  }

  /** `startAfter(cursor)` under `orderBy('createdAt', 'desc')`: the strictly older documents. */
  function StartAfter<T>(s: seq<Doc<T>>, cursor: Doc<T>): (r: seq<Doc<T>>)
    ensures |r| <= |s|
    ensures forall i :: 0 <= i < |r| ==> r[i] in s && r[i].createdAt < cursor.createdAt
    ensures forall i :: 0 <= i < |s| && s[i].createdAt < cursor.createdAt ==> s[i] in r
    decreases |s|
  {
    if s == [] then []
    else if s[0].createdAt < cursor.createdAt then [s[0]] + StartAfter(s[1..], cursor)
    else StartAfter(s[1..], cursor)
  }

  /** In a newest-first store, resuming after the document at position `i` yields exactly the suffix behind it. */
  lemma {:induction false} StartAfterIsSuffix<T>(s: seq<Doc<T>>, i: nat)
    requires NewestFirst(s) && i < |s|
    ensures StartAfter(s, s[i]) == s[i + 1..]
    decreases |s|
  {
    if i == 0 {
      AllOlder(s[1..], s[0]);
    } else {
      StartAfterIsSuffix(s[1..], i - 1);
      assert s[1..][i - 1] == s[i];
    }
  }

  lemma {:induction false} AllOlder<T>(s: seq<Doc<T>>, cursor: Doc<T>)
    requires forall i :: 0 <= i < |s| ==> s[i].createdAt < cursor.createdAt
    ensures StartAfter(s, cursor) == s
    decreases |s|
  {
    if s != [] {
      AllOlder(s[1..], cursor);
      assert [s[0]] + s[1..] == s;
    }
  }

  /** Offset of page `k` (1-based) of size `size`: `(k-1)*size`, built up page by page. */
  function PageStart(k: nat, size: nat): nat
  {
    if k <= 1 then 0 else PageStart(k - 1, size) + size
  }

  /** The offset is the product the screens compute. */
  lemma {:induction false} PageStartIsProduct(k: nat, size: nat)
    requires k >= 1
    ensures PageStart(k, size) == (k - 1) * size
  {
    if k > 1 {
      PageStartIsProduct(k - 1, size);
    }
  }

  /** Later pages start no earlier. */
  lemma {:induction false} PageStartMonotone(j: nat, k: nat, size: nat)
    requires j <= k
    ensures PageStart(j, size) <= PageStart(k, size)
    decreases k
  {
    if j < k {
      PageStartMonotone(j, k - 1, size);
    }
  }

  /** Documents of page `k` (1-based) of size `size`: `size` positions from its offset,
      clipped to the store. */
  function Slice<T>(s: seq<Doc<T>>, k: nat, size: nat): (r: seq<Doc<T>>)
    ensures PageStart(k, size) <= |s| ==> r == s[PageStart(k, size)..Clip(PageStart(k, size) + size, |s|)]
    ensures PageStart(k, size) >= |s| ==> r == []
  {
    var lo := Clip(PageStart(k, size), |s|);
    s[lo..Clip(lo + size, |s|)]
  }

  function Clip(x: int, n: int): int
  {
    if x <= n then x else n
  }

  /** In a newest-first store, `startAfter` the document at `a-1` with `limit(size)` returns
      the `size` positions from `a`, clipped to the store. */
  lemma ResumeAt<T>(s: seq<Doc<T>>, a: int, size: nat)
    requires NewestFirst(s) && 1 <= a <= |s|
    ensures Take(StartAfter(s, s[a - 1]), size) == s[a..Clip(a + size, |s|)]
  {
    StartAfterIsSuffix(s, a - 1);
    TakeSuffix(s, a, size);
  }

  lemma TakeSuffix<T>(s: seq<Doc<T>>, a: int, size: nat)
    requires 0 <= a <= |s|
    ensures Take(s[a..], size) == s[a..Clip(a + size, |s|)]
  {
  }

  /** Two adjacent runs of positions join into one. */
  lemma SliceJoin<T>(s: seq<T>, a: int, b: int, c: int)
    requires 0 <= a <= b <= c <= |s|
    ensures s[a..b] + s[b..c] == s[a..c]
  {
  }

  /** Two different pages of a newest-first store share no document. */
  lemma PagesDisjoint<T>(s: seq<Doc<T>>, j: nat, k: nat, size: nat)
    requires NewestFirst(s) && 1 <= j < k
    ensures forall d :: d in Slice(s, j, size) ==> d !in Slice(s, k, size)
  {
    var lo := Clip(PageStart(j, size), |s|);
    var hi := Clip(lo + size, |s|);
    var lo' := Clip(PageStart(k, size), |s|);
    assert PageStart(j + 1, size) == PageStart(j, size) + size;
    PageStartMonotone(j + 1, k, size);
    assert hi <= lo';
    forall d | d in Slice(s, j, size)
      ensures d !in Slice(s, k, size)
    {
      var a :| 0 <= a < hi && s[a] == d;
      assert forall b :: lo' <= b < |s| ==> s[b].createdAt < d.createdAt;
    }
  }

  /** The fields of every document with id `id` are replaced by `f` of themselves; nothing else changes. */
  function UpdateById<T>(s: seq<Doc<T>>, id: string, f: T -> T): (r: seq<Doc<T>>)
    ensures |r| == |s|
    ensures forall i :: 0 <= i < |s| ==> r[i].id == s[i].id && r[i].createdAt == s[i].createdAt
    ensures forall i :: 0 <= i < |s| && s[i].id != id ==> r[i] == s[i]
    ensures forall i :: 0 <= i < |s| && s[i].id == id ==> r[i].data == f(s[i].data)
  {
    seq(|s|, i requires 0 <= i < |s| => if s[i].id == id then s[i].(data := f(s[i].data)) else s[i])
  }

  predicate IdIsNot<T>(id: string, d: Doc<T>)
  {
    d.id != id
  }

  /** `filter(d => d.id !== id)`. */
  function RemoveById<T>(s: seq<Doc<T>>, id: string): (r: seq<Doc<T>>)
    ensures !HasId(r, id)
    ensures forall i :: 0 <= i < |s| && s[i].id != id ==> s[i] in r
    ensures forall i :: 0 <= i < |r| ==> r[i] in s
  {
    Filter(s, d => IdIsNot(id, d))
  }

  /** With unique ids, removing a present id shortens the sequence by exactly one. */
  lemma {:induction false} RemovePresentId<T>(s: seq<Doc<T>>, id: string)
    requires UniqueIds(s) && HasId(s, id)
    ensures |RemoveById(s, id)| == |s| - 1
    decreases |s|
  {
    var p := (d: Doc<T>) => IdIsNot(id, d);
    if s[0].id == id {
      assert forall i :: 0 <= i < |s[1..]| ==> p(s[1..][i]) by {
        forall i | 0 <= i < |s[1..]|
          ensures p(s[1..][i])
        {
          assert s[1..][i] == s[i + 1];
        }
      }
      FilterAll(s[1..], p);
    } else {
      var k :| 0 <= k < |s| && s[k].id == id;
      assert s[1..][k - 1].id == id;
      RemovePresentId(s[1..], id);
    }
  }

  /** Removing an id keeps the remaining documents in their order. */
  lemma RemoveKeepsOrder<T>(s: seq<Doc<T>>, id: string)
    ensures IsSubseq(RemoveById(s, id), s)
  {
    FilterIsSubseq(s, d => IdIsNot(id, d));
  }

  /** What a delete does to a loaded list: the rest keeps its order, and with unique ids a
      present id costs exactly one entry. */
  lemma RemoveLoaded<T>(s: seq<Doc<T>>, id: string)
    ensures IsSubseq(RemoveById(s, id), s)
    ensures UniqueIds(s) && HasId(s, id) ==> |RemoveById(s, id)| == |s| - 1
  {
    RemoveKeepsOrder(s, id);
    if UniqueIds(s) && HasId(s, id) {
      RemovePresentId(s, id);
    }
  }
}

=== FILE: gallery_upload.dfy ===
/**
 The admin gallery manager: add a media item (name, URL, image or video), edit
 one, delete one, and the search / type filter over the loaded list. Every
 write is followed by a reload of the whole collection, newest first.
 */
module GalleryUpload {
  import opened Common
  import opened Text
  import opened DocStore

  datatype MediaItem = MediaItem(name: string, url: string, kind: string)

  /** The form's three inputs. */
  datatype FormData = FormData(name: string, url: string, kind: string)

  datatype Screen = Screen(
    media: seq<Doc<MediaItem>>,
    showUploadForm: bool,
    editing: Option<Doc<MediaItem>>,
    searchTerm: string,
    filterType: string,
    form: FormData,
    error: string)

  datatype World = World(store: seq<Doc<MediaItem>>, screen: Screen)

  /** The form as it starts and as it is reset: empty, type image. */
  function BlankForm(): FormData { FormData("", "", "image") }

  /** `fetchMedia`: `ok` is whether the query succeeded; a failure keeps the list. */
  function Reload(w: World, ok: bool): (r: World)
    ensures r.store == w.store
    ensures ok ==> r.screen == w.screen.(media := w.store)
    ensures !ok ==> r == w
  {
    if ok then w.(screen := w.screen.(media := w.store)) else w
  }

  /** `handleSubmit` for a new item. The store assigns `id` and `createdAt`; `writeError` is
      the store's error message when the write fails. */
  function Submit(w: World, id: string, createdAt: int, writeError: Option<string>, loadOk: bool): (r: World)
    ensures w.screen.form.name == "" || w.screen.form.url == "" ==>
      r == w.(screen := w.screen.(error := "Please fill in all fields"))
    ensures w.screen.form.name != "" && w.screen.form.url != "" && writeError.Some? ==>
      r == w.(screen := w.screen.(error := "Error uploading media: " + writeError.value))
    ensures w.screen.form.name != "" && w.screen.form.url != "" && writeError.None? ==>
      && r.store == [Doc(id, createdAt, MediaItem(w.screen.form.name, w.screen.form.url, w.screen.form.kind))] + w.store
      && r.screen.form == BlankForm() && !r.screen.showUploadForm && r.screen.error == ""
      && (loadOk ==> r.screen.media == r.store)
      && (!loadOk ==> r.screen.media == w.screen.media)
      && r.screen.(media := w.screen.media, form := w.screen.form, showUploadForm := w.screen.showUploadForm,
                   error := w.screen.error) == w.screen
  {
    var f := w.screen.form;
    if f.name == "" || f.url == "" then
      w.(screen := w.screen.(error := "Please fill in all fields"))
    else match writeError
      case Some(msg) => w.(screen := w.screen.(error := "Error uploading media: " + msg))
      case None =>
        var stored := [Doc(id, createdAt, MediaItem(f.name, f.url, f.kind))] + w.store;
        Reload(World(stored, w.screen.(form := BlankForm(), showUploadForm := false, error := "")), loadOk)
  }

  /** An item added after everything in a newest-first store keeps the store newest first. */
  lemma SubmitKeepsOrder(w: World, id: string, createdAt: int, loadOk: bool)
    requires NewestFirst(w.store)
    requires forall i :: 0 <= i < |w.store| ==> w.store[i].createdAt < createdAt
    ensures NewestFirst(Submit(w, id, createdAt, None, loadOk).store)
  {
  }

  /** `handleEdit(item)`: that item is being edited and the form holds its three fields. */
  function Edit(sc: Screen, item: Doc<MediaItem>): (r: Screen)
    ensures r.editing == Some(item)
    ensures r.form == FormData(item.data.name, item.data.url, item.data.kind)
    ensures r.(editing := sc.editing, form := sc.form) == sc
  {
    sc.(editing := Some(item), form := FormData(item.data.name, item.data.url, item.data.kind))
  }

  function FromForm(f: FormData): MediaItem -> MediaItem
  {
    (m: MediaItem) => m.(name := f.name, url := f.url, kind := f.kind)
  }

  /** `handleUpdate`: nothing when no item is being edited; otherwise the edited item's
      name, URL and type take the form's values, then the form is reset and the list reloaded. */
  function Update(w: World, writeError: Option<string>, loadOk: bool): (r: World)
    ensures w.screen.editing.None? ==> r == w
    ensures w.screen.editing.Some? && writeError.Some? ==>
      r == w.(screen := w.screen.(error := "Error updating media: " + writeError.value))
    ensures w.screen.editing.Some? && writeError.None? ==>
      var id := w.screen.editing.value.id;
      && |r.store| == |w.store|
      && (forall i :: 0 <= i < |w.store| && w.store[i].id != id ==> r.store[i] == w.store[i])
      && (forall i :: 0 <= i < |w.store| && w.store[i].id == id ==>
            r.store[i].id == id && r.store[i].createdAt == w.store[i].createdAt
            && r.store[i].data == MediaItem(w.screen.form.name, w.screen.form.url, w.screen.form.kind))
      && r.screen.editing.None? && r.screen.form == BlankForm()
      && (loadOk ==> r.screen.media == r.store)
      && (!loadOk ==> r.screen.media == w.screen.media)
      && r.screen.(media := w.screen.media, editing := w.screen.editing, form := w.screen.form) == w.screen
  {
    match w.screen.editing
    case None => w
    case Some(item) =>
      match writeError
      case Some(msg) => w.(screen := w.screen.(error := "Error updating media: " + msg))
      case None =>
        var stored := UpdateById(w.store, item.id, FromForm(w.screen.form));
        Reload(World(stored, w.screen.(editing := None, form := BlankForm())), loadOk)
  }

  /** Opening an item for editing and saving it untouched leaves the store as it was. */
  lemma EditThenSaveIsIdentity(w: World, i: nat, loadOk: bool)
    requires UniqueIds(w.store) && i < |w.store|
    ensures Update(w.(screen := Edit(w.screen, w.store[i])), None, loadOk).store == w.store
  {
    var r := Update(w.(screen := Edit(w.screen, w.store[i])), None, loadOk);
    assert forall j :: 0 <= j < |w.store| ==> r.store[j] == w.store[j];
  }

  /** `handleDelete(id)`: after confirmation the item is deleted and the list reloaded. */
  function Delete(w: World, id: string, confirmed: bool, deleteError: Option<string>, loadOk: bool): (r: World)
    ensures !confirmed ==> r == w
    ensures confirmed && deleteError.Some? ==>
      r == w.(screen := w.screen.(error := "Error deleting media: " + deleteError.value))
    ensures confirmed && deleteError.None? ==>
      !HasId(r.store, id) && r.store == RemoveById(w.store, id)
      && (loadOk ==> r.screen.media == r.store)
      && (!loadOk ==> r.screen == w.screen)
      && r.screen.(media := w.screen.media) == w.screen
  {
    if !confirmed then w
    else match deleteError
      case Some(msg) => w.(screen := w.screen.(error := "Error deleting media: " + msg))
      case None => Reload(w.(store := RemoveById(w.store, id)), loadOk)
  }

  predicate Shown(searchTerm: string, filterType: string, d: Doc<MediaItem>)
  {
    Includes(Lower(d.data.name), Lower(searchTerm)) && (filterType == "all" || d.data.kind == filterType)
  }

  /** `filteredMedia`: the name contains the search, ignoring case, and the type passes the filter. */
  function FilteredMedia(media: seq<Doc<MediaItem>>, searchTerm: string, filterType: string): (r: seq<Doc<MediaItem>>)
    ensures IsSubseq(r, media)
    ensures forall i :: 0 <= i < |media| ==> (media[i] in r <==> Shown(searchTerm, filterType, media[i]))
    ensures forall i :: 0 <= i < |r| ==> Shown(searchTerm, filterType, r[i])
    ensures forall i :: 0 <= i < |r| ==> |searchTerm| <= |r[i].data.name|
  {
    Select(media, d => Shown(searchTerm, filterType, d))
  }

  /** With no search and every type, the whole list is shown. */
  lemma NoSearchShowsAll(media: seq<Doc<MediaItem>>)
    ensures FilteredMedia(media, "", "all") == media
  {
    forall i | 0 <= i < |media|
      ensures Shown("", "all", media[i])
    {
      IncludesEmpty(Lower(media[i].data.name));
    }
    FilterAll(media, d => Shown("", "all", d));
  }
}

=== FILE: our_projects.dfy ===
/**
 The public project gallery: media items loaded six at a time, newest first,
 with a "Load More" button that resumes after the last loaded item, and the
 split of what is loaded into an image list and a video list by declared type
 or by the URL's file extension.
 */
module OurProjects {
  import opened Common
  import opened Text
  import opened DocStore
  import GalleryUpload

  type Item = Doc<GalleryUpload.MediaItem>

  /** `PAGE_SIZE`. */
  const PageSize: nat := 6

  datatype State = State(media: seq<Item>, loading: bool, lastDoc: Option<Item>, hasMore: bool)

  function Initial(): State
  {
    State([], false, None, true)
  }

  /** `fetchMedia(reset)`. A reset load queries from the top and replaces the list; any other
      load resumes after `lastDoc` and appends. What the store library answers to a query
      resuming after no document is not part of this model: that case leaves the screen
      loading and changes nothing else, and `LoadMoreAppendsNext` shows that "Load More"
      never reaches it once the first load is in. */
  function FetchMedia(store: seq<Item>, st: State, reset: bool): (r: State)
    ensures !reset && st.lastDoc.None? ==> r == st.(loading := true)
    ensures reset || st.lastDoc.Some? ==>
      var batch := if reset then Take(store, PageSize) else Take(StartAfter(store, st.lastDoc.value), PageSize);
      && r.media == (if reset then batch else st.media + batch)
      && r.hasMore == (|batch| == PageSize)
      && r.lastDoc == (if batch == [] then None else Some(batch[|batch| - 1]))
      && !r.loading
  {
    if !reset && st.lastDoc.None? then st.(loading := true)
    else
      var batch := if reset then Take(store, PageSize) else Take(StartAfter(store, st.lastDoc.value), PageSize);
      State(if reset then batch else st.media + batch,
            false,
            if batch == [] then None else Some(batch[|batch| - 1]),
            |batch| == PageSize)
  }

  /** `handleLoadMore`: nothing while a load is running or when there is nothing more. */
  function LoadMore(store: seq<Item>, st: State): (r: State)
    ensures !st.hasMore || st.loading ==> r == st
    ensures st.hasMore && !st.loading ==> r == FetchMedia(store, st, false)
  {
    if !st.hasMore || st.loading then st else FetchMedia(store, st, false)
  }

  /** What holds between loads: the list is the newest part of the store, the cursor is its
      last item, and without a cursor there is nothing more to load. */
  predicate Loaded(store: seq<Item>, st: State)
  {
    NewestFirst(store)
    && |st.media| <= |store| && st.media == store[..|st.media|]
    && (st.lastDoc.Some? ==> |st.media| > 0 && st.lastDoc.value == st.media[|st.media| - 1])
    && (st.lastDoc.None? ==> !st.hasMore)
    && !st.loading
  }

  /** The first load on mount shows the newest six items (or all, if fewer). */
  lemma MountLoadsNewest(store: seq<Item>)
    requires NewestFirst(store)
    ensures var r := FetchMedia(store, Initial(), true);
      Loaded(store, r) && r.media == Take(store, PageSize)
  {
  }

  /** Each "Load More" that is offered resumes after a cursor and appends exactly the next
      six items of the store (or what is left), keeping the invariant. */
  lemma LoadMoreAppendsNext(store: seq<Item>, st: State)
    requires Loaded(store, st) && st.hasMore
    ensures st.lastDoc.Some?
    ensures var r := LoadMore(store, st);
      var n := |st.media|;
      Loaded(store, r) && r.media == st.media + store[n..Clip(n + PageSize, |store|)]
  {
    var n := |st.media|;
    var hi := Clip(n + PageSize, |store|);
    NextBatch(store, st);
    AppendKeepsPrefix(store, st.media, store[n..hi], hi);
  }

  /** Resuming after the cursor of a loaded state fetches the run right behind the list. */
  lemma NextBatch(store: seq<Item>, st: State)
    requires Loaded(store, st) && st.lastDoc.Some?
    ensures var n := |st.media|;
      Take(StartAfter(store, st.lastDoc.value), PageSize) == store[n..Clip(n + PageSize, |store|)]
  {
    var n := |st.media|;
    assert st.lastDoc.value == store[n - 1];
    ResumeAt(store, n, PageSize);
  }

  /** Appending the run that follows a prefix gives the longer prefix. */
  lemma AppendKeepsPrefix(store: seq<Item>, media: seq<Item>, batch: seq<Item>, hi: int)
    requires |media| <= hi <= |store| && media == store[..|media|] && batch == store[|media|..hi]
    ensures media + batch == store[..hi]
    ensures batch != [] ==> (media + batch)[hi - 1] == batch[|batch| - 1]
  {
  }

  /** The extensions the video test recognises. */
  const VideoExtensions: seq<string> := [".mp4", ".webm", ".mov"]

  /** The last `|e|` characters of `url`, case-folded, spell `e`. */
  predicate FoldedSuffix(url: string, e: string)
  {
    |e| <= |url| && Lower(url[|url| - |e|..]) == e
  }

  /** `url.match(/\.(mp4|webm|mov)$/i)`: the URL's last characters, read without regard to
      letter case, are one of the video extensions. */
  predicate IsVideoUrl(url: string): (b: bool)
    ensures b <==> exists k :: 0 <= k < |VideoExtensions| && FoldedSuffix(url, VideoExtensions[k])
  {
    VideoUrlCases(url);
    var u := Lower(url);
    EndsWith(u, ".mp4") || EndsWith(u, ".webm") || EndsWith(u, ".mov")
  }

  /** Testing the folded URL's ending is testing the folded ending. */
  lemma FoldedEndsWith(url: string, e: string)
    ensures EndsWith(Lower(url), e) <==> FoldedSuffix(url, e)
  {
    if |e| <= |url| {
      assert Lower(url)[|url| - |e|..] == Lower(url[|url| - |e|..]);
    }
  }

  lemma VideoUrlCases(url: string)
    ensures var u := Lower(url);
      (EndsWith(u, ".mp4") || EndsWith(u, ".webm") || EndsWith(u, ".mov"))
      <==> exists k :: 0 <= k < |VideoExtensions| && FoldedSuffix(url, VideoExtensions[k])
  {
    FoldedEndsWith(url, ".mp4");
    FoldedEndsWith(url, ".webm");
    FoldedEndsWith(url, ".mov");
    assert VideoExtensions[0] == ".mp4" && VideoExtensions[1] == ".webm" && VideoExtensions[2] == ".mov";
  }

  /** Goes to the image list: declared an image, or a URL without a video extension. */
  predicate ImageListed(d: Item)
  {
    d.data.kind == "image" || (d.data.url != "" && !IsVideoUrl(d.data.url))
  }

  /** Goes to the video list: declared a video, or a URL with a video extension. */
  predicate VideoListed(d: Item)
  {
    d.data.kind == "video" || (d.data.url != "" && IsVideoUrl(d.data.url))
  }

  function Images(media: seq<Item>): (r: seq<Item>)
    ensures IsSubseq(r, media)
    ensures forall i :: 0 <= i < |media| ==> (media[i] in r <==> ImageListed(media[i]))
  {
    FilterIsSubseq(media, ImageListed);
    Filter(media, ImageListed)
  }

  function Videos(media: seq<Item>): (r: seq<Item>)
    ensures IsSubseq(r, media)
    ensures forall i :: 0 <= i < |media| ==> (media[i] in r <==> VideoListed(media[i]))
  {
    FilterIsSubseq(media, VideoListed);
    Filter(media, VideoListed)
  }

  /** Nothing with a URL is dropped: it lands in at least one of the two lists. */
  lemma EveryItemListed(media: seq<Item>, i: nat)
    requires i < |media| && media[i].data.url != ""
    ensures media[i] in Images(media) || media[i] in Videos(media)
  {
  }

  /** For a declared image or video with a URL, it lands in both lists exactly when the
      declared type disagrees with the URL's extension: the split is not a partition. */
  lemma BothListsWhenTypeDisagrees(media: seq<Item>, i: nat)
    requires i < |media| && media[i].data.url != ""
    requires media[i].data.kind == "image" || media[i].data.kind == "video"
    ensures media[i] in Images(media) && media[i] in Videos(media)
      <==> (media[i].data.kind == "image") == IsVideoUrl(media[i].data.url)
  {
  }
}

=== FILE: pagination.dfy ===
/**
 The pagination bar shared by the admin list screens: the page-button list with
 ellipses (a window of two pages either side of the current one, plus the first
 and last page), the "Showing a-b of N" range, and the guards on page and
 page-size changes. The callbacks it invokes are returned as values.
 */
module Pagination {
  import opened Common
  import DocStore

  /** One entry of the page-button list: a page number or the `'...'` marker. */
  datatype PageItem = Num(n: int) | Ellipsis

  /** A request the bar forwards to its parent screen. */
  datatype Event = PageSizeChanged(size: int) | PageChanged(page: int)

  /** Pages shown on each side of the current page. */
  const Delta: int := 2

  function Max(a: int, b: int): int { if a >= b then a else b }
  function Min(a: int, b: int): int { if a <= b then a else b }

  /** `Math.ceil(totalItems / pageSize)`, as the admin screens compute the page count. */
  function TotalPages(totalItems: int, pageSize: int): (r: int)
    requires pageSize > 0
    ensures (r - 1) * pageSize < totalItems <= r * pageSize
    ensures totalItems >= 0 ==> r >= 0
  {
    -((-totalItems) / pageSize)
  }

  /** The buttons `lo, lo+1, ..., hi`. */
  function NumRange(lo: int, hi: int): (r: seq<PageItem>)
    ensures |r| == if lo <= hi then hi - lo + 1 else 0
    ensures forall i :: 0 <= i < |r| ==> r[i] == Num(lo + i)
    decreases if lo <= hi then hi - lo + 1 else 0
  {
    if lo > hi then [] else [Num(lo)] + NumRange(lo + 1, hi)
  }

  /** First and last page of the window around `current`, clipped to 2..totalPages-1. */
  function WindowLo(current: int): int { Max(2, current - Delta) }
  function WindowHi(current: int, totalPages: int): int { Min(totalPages - 1, current + Delta) }

  function WindowSize(current: int, totalPages: int): nat
  {
    var lo := WindowLo(current);
    var hi := WindowHi(current, totalPages);
    if lo <= hi then hi - lo + 1 else 0
  }

  /** The window leaves a gap after page 1 / before the last page. */
  predicate LeftGap(current: int) { current - Delta > 2 }
  predicate RightGap(current: int, totalPages: int) { current + Delta < totalPages - 1 }

  /** Entries before the window: page 1, and the ellipsis when there is a left gap. */
  function LeftLen(current: int): nat { if LeftGap(current) then 2 else 1 }

  function RightLen(current: int, totalPages: int): nat
  {
    if RightGap(current, totalPages) then 2 else if totalPages > 1 then 1 else 0
  }

  /** Position-wise reading of the page list: entry `i` computed directly from `i`. */
  function Entry(current: int, totalPages: int, i: int): PageItem
  {
    var l := LeftLen(current);
    var w := WindowSize(current, totalPages);
    if i == 0 then Num(1)
    else if i < l then Ellipsis
    else if i < l + w then Num(WindowLo(current) + (i - l))
    else if RightGap(current, totalPages) && i == l + w then Ellipsis
    else Num(totalPages)
  }

  /** `getVisiblePages`: page 1, an optional ellipsis, the window around the current page,
      an optional ellipsis, and the last page when there is more than one. */
  function VisiblePages(current: int, totalPages: int): (r: seq<PageItem>)
    ensures |r| == LeftLen(current) + WindowSize(current, totalPages) + RightLen(current, totalPages)
    ensures forall i :: 0 <= i < |r| ==> r[i] == Entry(current, totalPages, i)
  {
    var lo := WindowLo(current);
    var hi := WindowHi(current, totalPages);
    var window := NumRange(lo, hi);
    var left := if current - Delta > 2 then [Num(1), Ellipsis] else [Num(1)];
    var right := if current + Delta < totalPages - 1 then [Ellipsis, Num(totalPages)]
                 else if totalPages > 1 then [Num(totalPages)]
                 else [];
    var r := left + window + right;
    assert forall i :: |left| <= i < |left| + |window| ==> r[i] == window[i - |left|];
    assert forall i :: |left| + |window| <= i < |r| ==> r[i] == right[i - |left| - |window|];
    r
  }

  /** The list starts with page 1, ends with the last page when there are several, and
      never has more than nine entries. */
  lemma VisibleEnds(current: int, totalPages: int)
    ensures var r := VisiblePages(current, totalPages);
      |r| >= 1 && r[0] == Num(1)
      && (totalPages > 1 ==> r[|r| - 1] == Num(totalPages))
      && |r| <= 9
  {
  }

  /** Every page within two of the current one (and within 1..totalPages) is listed, and
      nothing else is listed but page 1 and the last page. */
  lemma VisibleWindow(current: int, totalPages: int)
    ensures var r := VisiblePages(current, totalPages);
      forall p :: Max(1, current - Delta) <= p <= Min(totalPages, current + Delta) ==> Num(p) in r
    ensures var r := VisiblePages(current, totalPages);
      forall i :: 0 <= i < |r| && r[i].Num? ==>
        r[i].n == 1 || r[i].n == totalPages
        || WindowLo(current) <= r[i].n <= WindowHi(current, totalPages)
  {
    var r := VisiblePages(current, totalPages);
    var l := LeftLen(current);
    forall p | Max(1, current - Delta) <= p <= Min(totalPages, current + Delta)
      ensures Num(p) in r
    {
      if p == 1 {
        assert r[0] == Num(p);
      } else if p == totalPages {
        assert r[|r| - 1] == Num(p);
      } else {
        assert r[l + (p - WindowLo(current))] == Num(p);
      }
    }
  }

  /** An ellipsis stands only right after page 1 or right before the last page, and it
      stands there exactly when the window leaves a gap on that side; so there are at
      most two. */
  lemma VisibleEllipses(current: int, totalPages: int)
    ensures var r := VisiblePages(current, totalPages);
      forall i :: 0 <= i < |r| && r[i] == Ellipsis ==>
        (i == 1 && LeftGap(current)) || (i == |r| - 2 && RightGap(current, totalPages))
    ensures var r := VisiblePages(current, totalPages);
      LeftGap(current) ==> |r| > 1 && r[1] == Ellipsis
    ensures var r := VisiblePages(current, totalPages);
      RightGap(current, totalPages) ==> |r| > 1 && r[|r| - 2] == Ellipsis
  {
  }

  /** For a current page of at least 1, no page is listed twice: the numbers strictly increase. */
  lemma VisibleIncreasing(current: int, totalPages: int)
    requires current >= 1
    ensures var r := VisiblePages(current, totalPages);
      forall i, j :: 0 <= i < j < |r| && r[i].Num? && r[j].Num? ==> r[i].n < r[j].n
  {
  }

  /** The page buttons actually rendered: none at all when there is at most one page. */
  function PageButtons(current: int, totalPages: int): (r: seq<PageItem>)
    ensures totalPages <= 1 <==> r == []
    ensures totalPages > 1 ==> r[0] == Num(1) && r[|r| - 1] == Num(totalPages)
  {
    if totalPages <= 1 then [] else VisiblePages(current, totalPages)
  }

  /** First item number of the "Showing a-b of N" line: one past the offset at which page
      `current` starts. */
  function StartItem(current: int, pageSize: int): (r: int)
    ensures current >= 1 && pageSize >= 0 ==> r == DocStore.PageStart(current, pageSize) + 1
  {
    if current >= 1 && pageSize >= 0 then
      DocStore.PageStartIsProduct(current, pageSize);
      (current - 1) * pageSize + 1
    else
      (current - 1) * pageSize + 1
  }

  /** Last item number of the "Showing a-b of N" line: the end of page `current`, or the
      last item when the page is the final, partial one. */
  function EndItem(current: int, pageSize: int, totalItems: int): (r: int)
    ensures r <= current * pageSize && r <= totalItems
    ensures r == current * pageSize || r == totalItems
  {
    Min(current * pageSize, totalItems)
  }

  /** For a page that holds documents of the store, "Showing a-b of N" names exactly the
      positions of that page's slice: `a` is one past its offset and `b - a + 1` its length. */
  lemma ShowingDescribesSlice<T>(store: seq<DocStore.Doc<T>>, current: nat, pageSize: nat)
    requires current >= 1 && pageSize >= 1
    requires DocStore.PageStart(current, pageSize) < |store|
    ensures StartItem(current, pageSize) == DocStore.PageStart(current, pageSize) + 1
    ensures EndItem(current, pageSize, |store|) - StartItem(current, pageSize) + 1
      == |DocStore.Slice(store, current, pageSize)|
  {
    DocStore.PageStartIsProduct(current, pageSize);
    assert (current - 1) * pageSize + pageSize == current * pageSize;
  }

  /** For a current page within the page count, the shown range is a non-empty part of
      the items holding at most one page's worth. */
  lemma ShowingRange(current: int, pageSize: int, totalItems: int)
    requires pageSize > 0 && totalItems > 0
    requires 1 <= current <= TotalPages(totalItems, pageSize)
    ensures 1 <= StartItem(current, pageSize) <= EndItem(current, pageSize, totalItems) <= totalItems
    ensures EndItem(current, pageSize, totalItems) - StartItem(current, pageSize) + 1 <= pageSize
  {
    var t := TotalPages(totalItems, pageSize);
    assert (current - 1) * pageSize <= (t - 1) * pageSize by {
      MulLe(current - 1, t - 1, pageSize);
    }
    assert (current - 1) * pageSize >= 0 by {
      MulLe(0, current - 1, pageSize);
    }
  }

  lemma MulLe(a: int, b: int, c: int)
    requires a <= b && c >= 0
    ensures a * c <= b * c
  {
  }

  /** `handlePageChange`: forwards `page` only when it is a valid page other than the current one. */
  function HandlePageChange(page: int, current: int, totalPages: int): (r: Option<Event>)
    ensures r.Some? <==> 1 <= page <= totalPages && page != current
    ensures r.Some? ==> r.value == PageChanged(page)
  {
    if page >= 1 && page <= totalPages && page != current then Some(PageChanged(page)) else None
  }

  /** The Prev button does nothing exactly when it is disabled (on the first page), and the
      Next button exactly when it is disabled (on the last page). */
  lemma PrevNextAtEnds(current: int, totalPages: int)
    requires 1 <= current <= totalPages
    ensures HandlePageChange(current - 1, current, totalPages) == None <==> current == 1
    ensures HandlePageChange(current + 1, current, totalPages) == None <==> current == totalPages
  {
  }

  /** `handlePageSizeChange`: a different size is forwarded, followed by a request for page 1. */
  function HandlePageSizeChange(newSize: int, pageSize: int): (r: seq<Event>)
    ensures newSize == pageSize <==> r == []
    ensures r != [] ==> r == [PageSizeChanged(newSize), PageChanged(1)]
  {
    if newSize != pageSize then [PageSizeChanged(newSize), PageChanged(1)] else []
  }

  /** With the current page inside 1..totalPages, the list has no silent gaps: neighbouring
      numbers are consecutive, and an ellipsis always stands between two numbers that
      are at least two apart. */
  lemma NoSilentGaps(current: int, totalPages: int)
    requires 1 <= current <= totalPages
    ensures var r := VisiblePages(current, totalPages);
      forall i :: 0 <= i < |r| - 1 && r[i].Num? && r[i + 1].Num? ==> r[i + 1].n == r[i].n + 1
    ensures var r := VisiblePages(current, totalPages);
      forall i :: 0 <= i < |r| && r[i] == Ellipsis ==>
        0 < i < |r| - 1 && r[i - 1].Num? && r[i + 1].Num? && r[i + 1].n >= r[i - 1].n + 2
  {
  }

  /** The two worked examples: ten pages around page 5, and four pages around page 2. */
  lemma WorkedExamples()
    ensures VisiblePages(5, 10) == [Num(1), Ellipsis, Num(3), Num(4), Num(5), Num(6), Num(7), Ellipsis, Num(10)]
    ensures VisiblePages(2, 4) == [Num(1), Num(2), Num(3), Num(4)]
  {
    assert NumRange(3, 7) == [Num(3), Num(4), Num(5), Num(6), Num(7)];
    assert NumRange(2, 3) == [Num(2), Num(3)];
  }
}

=== FILE: review_form.dfy ===
/**
 The on-page review form: text inputs, the star picker with hover preview, and
 submission, which requires every field and a rating and stores the review as
 pending moderation.
 */
module ReviewForm {
  import opened Common
  import opened Reviews
  import DocStore
  import AdminReviews

  datatype FormData = FormData(name: string, location: string, rating: int, text: string)

  datatype TextField = NameField | LocationField | TextBody

  datatype ModalType = Success | Failure

  datatype State = State(
    form: FormData,
    hovered: int,
    showModal: bool,
    modalMsg: string,
    modalType: ModalType)

  function EmptyForm(): FormData { FormData("", "", 0, "") }

  /** The state after submitting, and the review written to the store, if any. */
  datatype SubmitOutcome = SubmitOutcome(state: State, written: Option<Review>)

  /** Every field is filled: no empty text and a rating other than 0. */
  predicate Complete(f: FormData)
  {
    f.name != "" && f.location != "" && f.rating != 0 && f.text != ""
  }

  /** The stored review: the form's fields with `approved: false`. */
  function Record(f: FormData): Review
  {
    Review(f.name, Some(f.location), None, f.rating, f.text, false)
  }

  /** `handleSubmit`; `writeOk` is whether the store accepted the review. */
  function Submit(st: State, writeOk: bool): (r: SubmitOutcome)
    ensures !Complete(st.form) ==>
      r.written.None? && r.state.form == st.form && r.state.showModal
      && r.state.modalType == Failure && r.state.modalMsg == "Please fill in all fields"
    ensures Complete(st.form) && writeOk ==>
      r.written == Some(Record(st.form)) && !r.written.value.approved
      && r.state.form == EmptyForm() && r.state.showModal && r.state.modalType == Success
      && r.state.modalMsg == "Thank you! Your review has been submitted."
    ensures Complete(st.form) && !writeOk ==>
      r.written.None? && r.state.form == st.form && r.state.showModal
      && r.state.modalType == Failure && r.state.modalMsg == "Something went wrong. Please try again."
    ensures r.written.Some? <==> Complete(st.form) && writeOk
    ensures r.state.hovered == st.hovered
  {
    if st.form.name == "" || st.form.location == "" || st.form.rating == 0 || st.form.text == "" then
      SubmitOutcome(st.(modalMsg := "Please fill in all fields", modalType := Failure, showModal := true), None)
    else if writeOk then
      SubmitOutcome(st.(form := EmptyForm(), modalMsg := "Thank you! Your review has been submitted.",
                        modalType := Success, showModal := true),
                    Some(Record(st.form)))
    else
      SubmitOutcome(st.(modalMsg := "Something went wrong. Please try again.",
                        modalType := Failure, showModal := true), None)
  }

  /** A submitted review waits on the moderation screen's pending tab, not the approved one. */
  lemma SubmittedIsPending(st: State, id: string, createdAt: int)
    requires Complete(st.form)
    ensures var d := DocStore.Doc(id, createdAt, Submit(st, true).written.value);
      AdminReviews.FilteredReviews([d], "pending") == [d]
      && AdminReviews.FilteredReviews([d], "approved") == []
  {
    var d := DocStore.Doc(id, createdAt, Submit(st, true).written.value);
    AdminReviews.PendingTabMembers([d], 0);
  }

  /** `handleRatingClick(k)`: the rating becomes `k`, nothing else changes. */
  function RatingClick(st: State, k: int): (r: State)
    ensures r.form.rating == k
    ensures r.form.(rating := st.form.rating) == st.form
    ensures r.(form := st.form) == st
  {
    st.(form := st.form.(rating := k))
  }

  /** Clicking star `k` and leaving the picker fills stars 1..k. */
  lemma ClickThenLeave(st: State, k: int)
    requires 1 <= k <= 5
    ensures var r := RatingClick(st, k).(hovered := 0);
      FilledCount(FormStars(r.hovered, r.form.rating)) == k
  {
    FormStarsCount(0, k);
  }

  /** `handleInputChange` for one of the text inputs. */
  function InputChange(st: State, field: TextField, value: string): (r: State)
    ensures field == NameField ==> r.form == st.form.(name := value)
    ensures field == LocationField ==> r.form == st.form.(location := value)
    ensures field == TextBody ==> r.form == st.form.(text := value)
    ensures r.(form := st.form) == st
  {
    match field
    case NameField => st.(form := st.form.(name := value))
    case LocationField => st.(form := st.form.(location := value))
    case TextBody => st.(form := st.form.(text := value))
  }
}

=== FILE: review_us_button.dfy ===
/**
 The floating "review us" button and its modal form. Only the rating and the
 text are required; name and email are sent as typed. Closing the modal always
 discards the form.
 */
module ReviewUsButton {
  import opened Common
  import opened Reviews

  datatype FormData = FormData(name: string, email: string, rating: int, text: string)

  /** The status line under the form; the empty kind and text show nothing. */
  datatype Message = Message(kind: string, text: string)

  datatype State = State(isOpen: bool, form: FormData, hovered: int, message: Message)

  function EmptyForm(): FormData { FormData("", "", 0, "") }

  function NoMessage(): Message { Message("", "") }

  datatype SubmitOutcome = SubmitOutcome(state: State, written: Option<Review>)

  /** The two required inputs are filled. */
  predicate Complete(f: FormData)
  {
    f.rating != 0 && f.text != ""
  }

  function Record(f: FormData): Review
  {
    Review(f.name, None, Some(f.email), f.rating, f.text, false)
  }

  /** `handleSubmit`; `writeOk` is whether the store accepted the review. The later
      automatic close is not part of this step. */
  function Submit(st: State, writeOk: bool): (r: SubmitOutcome)
    ensures !Complete(st.form) ==>
      r.written.None? && r.state.form == st.form
      && r.state.message == Message("error", "Please provide a rating and review text")
    ensures Complete(st.form) && writeOk ==>
      r.written == Some(Record(st.form)) && !r.written.value.approved
      && r.state.form == EmptyForm() && r.state.message == Message("success", "Thank you for your feedback!")
    ensures Complete(st.form) && !writeOk ==>
      r.written.None? && r.state.form == st.form
      && r.state.message == Message("error", "Something went wrong. Please try again.")
    ensures r.written.Some? <==> Complete(st.form) && writeOk
    ensures r.state.isOpen == st.isOpen && r.state.hovered == st.hovered
  {
    if st.form.rating == 0 || st.form.text == "" then
      SubmitOutcome(st.(message := Message("error", "Please provide a rating and review text")), None)
    else if writeOk then
      SubmitOutcome(st.(form := EmptyForm(), message := Message("success", "Thank you for your feedback!")),
                    Some(Record(st.form)))
    else
      SubmitOutcome(st.(message := Message("error", "Something went wrong. Please try again.")), None)
  }

  /** Name and email play no part in acceptance: blanking them changes nothing about
      whether a review is written. */
  lemma NameAndEmailUnchecked(st: State, writeOk: bool)
    ensures Submit(st.(form := st.form.(name := "", email := "")), writeOk).written.Some?
      == Submit(st, writeOk).written.Some?
  {
  }

  /** `closeModal`: closed, empty form, no message, whatever happened before. */
  function CloseModal(st: State): (r: State)
    ensures !r.isOpen && r.form == EmptyForm() && r.message == NoMessage()
    ensures r.hovered == st.hovered
  {
    st.(isOpen := false, form := EmptyForm(), message := NoMessage())
  }

  /** Reopening after a close always starts from an empty form, even after a failed or
      rejected submission. */
  lemma CloseDiscards(st: State, writeOk: bool)
    ensures CloseModal(Submit(st, writeOk).state).form == EmptyForm()
    ensures CloseModal(Submit(st, writeOk).state) == CloseModal(st)
  {
  }

  /** `handleRatingClick(k)`. */
  function RatingClick(st: State, k: int): (r: State)
    ensures r.form.rating == k
    ensures r.form.(rating := st.form.rating) == st.form
    ensures r.(form := st.form) == st
  {
    st.(form := st.form.(rating := k))
  }

  /** While star `h` is hovered, stars 1..h are lit regardless of the chosen rating. */
  lemma HoverPreview(st: State, h: int)
    requires 1 <= h <= 5
    ensures FilledCount(FormStars(h, st.form.rating)) == h
  {
    FormStarsCount(h, st.form.rating);
  }
}

=== FILE: reviews.dfy ===
/**
 The stored review record shared by the two public review forms and the admin
 review screen, and the two star-fill rules: the admin cards fill star `i`
 (0-based) when `i < rating`, the forms fill star `k` (1-based) when `k` is at
 most the hovered star, or the chosen rating when nothing is hovered.
 */
module Reviews {
  import opened Common

  /** A review as stored. The page form writes a location and no email, the floating
      button writes an email and no location; both write `approved: false`. */
  datatype Review = Review(
    name: string,
    location: Option<string>,
    email: Option<string>,
    rating: int,
    text: string,
    approved: bool)

  /** Number of filled stars in a row. */
  function FilledCount(stars: seq<bool>): nat
    decreases |stars|
  {
    if stars == [] then 0
    else FilledCount(stars[..|stars| - 1]) + (if stars[|stars| - 1] then 1 else 0)
  }

  /** `v` clamped into `0..m`. */
  function Clamp(v: int, m: nat): nat
  {
    if v <= 0 then 0 else if v >= m then m else v
  }

  /** The first `m` stars of a row where the star at position `i` is filled iff `i < v`. */
  function Row(m: nat, v: int): (r: seq<bool>)
    ensures |r| == m
    ensures forall i :: 0 <= i < m ==> (r[i] <==> i < v)
  {
    seq(m, i requires 0 <= i < m => i < v)
  }

  /** Such a row fills exactly `v` stars, clamped to the row's length. */
  lemma {:induction false} RowCount(m: nat, v: int)
    ensures FilledCount(Row(m, v)) == Clamp(v, m)
  {
    if m > 0 {
      RowCount(m - 1, v);
      assert Row(m, v)[..m - 1] == Row(m - 1, v);
    }
  }

  /** The admin card's five stars: star `i` (0-based) is filled iff `i < rating`. */
  function AdminStars(rating: int): (r: seq<bool>)
    ensures |r| == 5
    ensures forall i :: 0 <= i < 5 ==> (r[i] <==> i < rating)
  {
    Row(5, rating)
  }

  /** A card shows `rating` filled stars, clamped into 0..5. */
  lemma AdminStarsCount(rating: int)
    ensures FilledCount(AdminStars(rating)) == Clamp(rating, 5)
  {
    RowCount(5, rating);
  }

  /** `hoveredRating || rating`: the hovered star wins when there is one. */
  function ShownRating(hovered: int, rating: int): int
  {
    if hovered != 0 then hovered else rating
  }

  /** The form's five stars: star `k` (1-based, at position
      `k-1`) is filled iff `k <= (hoveredRating || rating)`. */
  function FormStars(hovered: int, rating: int): (r: seq<bool>)
    ensures |r| == 5
    ensures forall i :: 0 <= i < 5 ==> (r[i] <==> i + 1 <= ShownRating(hovered, rating))
  {
    Row(5, ShownRating(hovered, rating))
  }

  /** Hovering star `h` lights stars 1..h whatever was chosen; with nothing hovered the
      chosen rating's stars are lit. */
  lemma FormStarsCount(hovered: int, rating: int)
    ensures 1 <= hovered <= 5 ==> FilledCount(FormStars(hovered, rating)) == hovered
    ensures hovered == 0 ==> FilledCount(FormStars(hovered, rating)) == Clamp(rating, 5)
  {
    RowCount(5, ShownRating(hovered, rating));
  }
}

=== FILE: text.dfy ===
/**
 The string operations the components use, over `seq<char>` read as Unicode
 code points: the ECMAScript white-space set (shared by `String.prototype.trim`
 and the regular-expression class `\s`), `trim`, removal of all white space,
 an ASCII-only `toLowerCase`, and `includes` / `endsWith`.
 */
module Text {
  import opened Common

  /** ECMAScript WhiteSpace and LineTerminator code points. */
  predicate IsSpace(c: char)
  {
    var n := c as int;
    n == 0x09 || n == 0x0A || n == 0x0B || n == 0x0C || n == 0x0D || n == 0x20
    || n == 0xA0 || n == 0x1680 || (0x2000 <= n <= 0x200A) || n == 0x2028 || n == 0x2029
    || n == 0x202F || n == 0x205F || n == 0x3000 || n == 0xFEFF
  }

  /** Every character is white space (vacuously true of the empty string). */
  predicate AllSpace(s: string)
  {
    forall i :: 0 <= i < |s| ==> IsSpace(s[i])
  }

  /** The regular-expression class `\d` without the `u` flag: ASCII digits. */
  predicate IsDigit(c: char)
  {
    '0' <= c <= '9'
  }

  function TrimStart(s: string): (r: string)
    ensures |r| <= |s| && r == s[|s| - |r|..]
    ensures |r| == 0 <==> AllSpace(s)
    ensures |r| > 0 ==> !IsSpace(r[0])
    decreases |s|
  {
    if s != [] && IsSpace(s[0]) then TrimStart(s[1..]) else s
  }

  function TrimEnd(s: string): (r: string)
    ensures |r| <= |s| && r == s[..|r|]
    ensures |r| == 0 <==> AllSpace(s)
    ensures |r| > 0 ==> !IsSpace(r[|r| - 1])
    decreases |s|
  {
    if s != [] && IsSpace(s[|s| - 1]) then TrimEnd(s[..|s| - 1]) else s
  }

  /** `String.prototype.trim`: drops white space at both ends. */
  function Trim(s: string): (r: string)
    ensures |r| <= |s|
    ensures |r| == 0 <==> AllSpace(s)
    ensures |r| > 0 ==> !IsSpace(r[0]) && !IsSpace(r[|r| - 1])
  {
    TrimEnd(TrimStart(s))
  }

  predicate NotSpace(c: char)
  {
    !IsSpace(c)
  }

  /** `s.replace(/\s/g, '')`: exactly the characters that are not white space, in their
      order and with their multiplicity. */
  function RemoveSpaces(s: string): (r: string)
    ensures r == Filter(s, NotSpace)
    ensures IsSubseq(r, s)
    ensures forall i :: 0 <= i < |r| ==> !IsSpace(r[i])
    ensures |r| == 0 <==> AllSpace(s)
    decreases |s|
  {
    FilterIsSubseq(s, NotSpace);
    if s == [] then []
    else if IsSpace(s[0]) then RemoveSpaces(s[1..])
    else [s[0]] + RemoveSpaces(s[1..])
  }

  /** A white-space character anywhere is removed without a trace. */
  lemma RemoveSpacesSkips(a: string, c: char, b: string)
    requires IsSpace(c)
    ensures RemoveSpaces(a + [c] + b) == RemoveSpaces(a + b)
  {
    assert [c][1..] == [];
    assert Filter([c], NotSpace) == [];
    FilterAppend(a + [c], b, NotSpace);
    FilterAppend(a, [c], NotSpace);
    FilterAppend(a, b, NotSpace);
  }

  /** ASCII upper-case letters map to lower case; everything else is kept. */
  function LowerChar(c: char): char
  {
    if 'A' <= c <= 'Z' then (c as int + 32) as char else c
  }

  /** `toLowerCase`, restricted to the ASCII letters. */
  function Lower(s: string): (r: string)
    ensures |r| == |s|
    ensures forall i :: 0 <= i < |s| ==> r[i] == LowerChar(s[i])
  {
    seq(|s|, i requires 0 <= i < |s| => LowerChar(s[i]))
  }

  /** Folding twice is folding once. */
  lemma LowerIdempotent(s: string)
    ensures Lower(Lower(s)) == Lower(s)
  {
  }

  predicate StartsWith(s: string, prefix: string)
  {
    |prefix| <= |s| && s[..|prefix|] == prefix
  }

  predicate EndsWith(s: string, suffix: string)
  {
    |suffix| <= |s| && s[|s| - |suffix|..] == suffix
  }

  /** `n` occurs in `h` starting at offset `i`. */
  predicate OccursAt(h: string, n: string, i: int)
  {
    0 <= i <= |h| - |n| && h[i..i + |n|] == n
  }

  /** `h.includes(n)`: `n` occurs in `h` at some offset. */
  function Includes(h: string, n: string): (b: bool)
    ensures b <==> exists i :: OccursAt(h, n, i)
    decreases |h|
  {
    if StartsWith(h, n) then
      assert OccursAt(h, n, 0);
      true
    else if h == [] then
      false
    else
      IncludesStep(h, n);
      Includes(h[1..], n)
  }

  /** Dropping the first character shifts every occurrence one place to the left. */
  lemma OccursShift(h: string, n: string, j: int)
    requires h != [] && j >= 0
    ensures OccursAt(h[1..], n, j) <==> OccursAt(h, n, j + 1)
  {
    if 0 <= j <= |h| - 1 - |n| {
      assert h[1..][j..j + |n|] == h[j + 1..j + 1 + |n|];
    }
  }

  /** When `n` is not a prefix of `h`, it occurs in `h` exactly when it occurs in `h`'s tail. */
  lemma IncludesStep(h: string, n: string)
    requires h != [] && !StartsWith(h, n)
    ensures (exists i :: OccursAt(h, n, i)) <==> (exists j :: OccursAt(h[1..], n, j))
  {
    if j :| OccursAt(h[1..], n, j) {
      OccursShift(h, n, j);
    }
    if i :| OccursAt(h, n, i) {
      assert i != 0;
      OccursShift(h, n, i - 1);
    }
  }

  /** The empty string occurs in every string. */
  lemma IncludesEmpty(h: string)
    ensures Includes(h, "")
  {
    assert OccursAt(h, "", 0);
  }

  /** `field?.toLowerCase().includes(term.toLowerCase())`, the search test the admin
      screens apply to an optional text field: a missing field never matches. */
  predicate FieldMatches(field: Option<string>, term: string)
  {
    field.Some? && Includes(Lower(field.value), Lower(term))
  }

  /** First position of `c` in `s`, if any. */
  function IndexOf(s: string, c: char): (r: Option<nat>)
    ensures r.None? <==> c !in s
    ensures r.Some? ==> r.value < |s| && s[r.value] == c && c !in s[..r.value]
    decreases |s|
  {
    if s == [] then None
    else if s[0] == c then Some(0)
    else
      match IndexOf(s[1..], c)
      case None => None
      case Some(k) =>
        assert s[..k + 1] == [s[0]] + s[1..][..k];
        Some(k + 1)
  }
}
